=== FILE: README.md ===
# Catalog, inventory and order rules of the ProyectoSENA shop backend

This project models the domain rules of the shop backend in Dafny. The
backend is an Express and Sequelize application over MySQL. The model covers:

- **Catalog.** The three-level catalog (categories own subcategories, which
  own products). This includes the field validators, the parent checks run
  on create, the deactivation cascades run on update, and the counts behind
  the category statistics.
- **Inventory.** Stock checks, stock debit and credit, and the product
  image URL.
- **Cart.** The cart lines (`Carrito`), with their unique
  (user, product) index and the cart summary.
- **Orders.** Orders (`Pedido`) and order lines (`DetallePedido`): the
  status set, the timestamps stamped on a status change, the subtotal
  hook, copying a cart into an order, the order total, and cancellation
  with restitution of stock.
- **Foreign keys.** The `CASCADE` and `RESTRICT` rules between the tables.
- **Admin controllers.** Create, update, toggle, delete and statistics for
  categories; create and update for products; toggle and delete for
  subcategories; and the paged product listing.
- **Bearer tokens.** Extracting the token from an `Authorization` header.

The whole database is one immutable value, `Db.Store`. Each table is a
sequence of rows in insertion order, keyed by an auto-increment `Id`.
Every operation is a pure function returning `Result<T>`: either the new
value or an `Error` naming the failure (not found, inactive parent,
duplicate, restricted delete, invalid fields, and so on). A failed
operation changes nothing.

Representation choices:

- **Money** is integer cents. `DECIMAL(10,2)` columns are bounded by
  `Catalog.MaxCents` (99,999,999.99).
- **The clock** is an explicit `now` parameter.
- **Integers.** `INTEGER` columns (stock, quantities) are bounded by
  `Catalog.MaxInt` (2,147,483,647). MySQL in strict mode refuses a larger
  value, so the model treats it as a failing validator.
- **Hook and controller bugs.** Where a model hook or a controller is
  evidently broken, the shared definitions model the documented
  behaviour, and a comment at the modelling member cites the source
  line. The defects listed under "Findings" also have a model of the code
  as written with a counterexample; where another defect stops the code
  before it, that model says which one it takes as fixed. The other
  spots, modules that fail to load included, are listed under "Left
  out".

Modules, one file each:

- `outcomes.dfy` (`Outcomes`): `Option`, `Result`, `Error` and `Field`.
- `text.dfy` (`Text`): the string predicates behind `notEmpty` and the
  case-insensitive extension check.
- `tables.dfy` (`Tables`): primary-key lookup, fresh keys and row
  filtering.
- `catalog.dfy` (`Catalog`): the records, validators, create hooks,
  cascades, saves and counts of `Categoria`, `Subcategoria` and
  `Producto`.
- `inventory.dfy` (`Inventory`): the instance methods of `Producto`.
- `carts.dfy` (`Carts`): `Carrito` and `getCarrito`.
- `orders.dfy` (`Orders`): `Pedido` and `DetallePedido`.
- `db.dfy` (`Db`): the whole store, the foreign keys, cancellation and
  deletes.
- `admin.dfy` (`Admin`): `categoria.controller.js` and the create, update,
  toggle and delete actions of `productos.controller.js`.
- `paging.dfy` (`Paging`): `getProductos`.
- `tokens.dfy` (`Tokens`): `extractToken`.
- `findings.dfy` (`Findings`): the code as written at each defect.

Readings chosen where the code and its own comments could be taken
more than one way:

- **Order status is a set, not a sequence.** `cambiarEstado` accepts any
  of the four status names from any status. It does not enforce the order
  pending → paid → shipped.
- **Subcategory names are unique within a category.** Names are unique per
  (name, category), as the composite index at
  `backend/models/subcategoria.js:99-104` declares. The column-level
  `unique` at `:32` is not modelled.
- **The paid status is spelled `pagado`.** The `isIn` validator at
  `backend/models/Pedido.js:73` and `cambiarEstado` at `:221-230` use
  `'pagado'`, and that spelling is modelled. The `ENUM` at `:68` spells
  it `'Pagado'`, so a paid row reads back as `'Pagado'`; the consequences
  are a finding.

## Model

| member | source | states |
|---|---|---|
| Catalog.ProductFieldErrors | backend/models/Producto.js:29-96 | names exactly the failing fields: a name that is blank (only JavaScript `\s` white space) or outside 3-200 characters as `len` counts them (code points, not counting the presentation selectors U+FE0E and U+FE0F), a price outside 0..99,999,999.99, a stock outside 0..2,147,483,647 (the `INTEGER` column), an image not ending in .jpg/.jpeg/.png/.gif in any letter case; empty iff all four validators pass |
| Catalog.CreateCategory | backend/models/Categoria.js:28-60 | succeeds iff the name passes `notEmpty`/`len [2,100]` and no category has it; a bad name is a validation error, a taken one a duplicate; appends one row under an unused id, active unless told otherwise, and touches no other table |
| Catalog.CreateSubcategory | backend/models/subcategoria.js:99-130 | succeeds iff the name is valid, the parent category exists and is active, and no subcategory of that category has the name; a missing parent is not-found and an inactive one is refused; appends one row under an unused id |
| Catalog.ParentCheck | backend/models/Producto.js:191-222 | no error iff the subcategory and the category both exist and are active and the subcategory belongs to the category; a missing subcategory is reported as not-found |
| Catalog.CreateProduct | backend/models/Producto.js:191-222 | succeeds iff every field validator passes and the parent check passes; field errors take precedence; stock defaults to 0; the new row is valid, has an unused id, carries the given fields, and only the product table grows |
| Catalog.DeactivateUnderSubcategory | backend/models/subcategoria.js:135-159 | every product of the subcategory ends inactive; no other field of any row changes; products of other subcategories and both other tables are untouched |
| Catalog.DeactivateUnderCategory | backend/models/Categoria.js:76-114 | every subcategory and every product of the category ends inactive, and so does every product of a subcategory of the category that was still active, whatever category that product names; only `activo` flags change and none becomes true; subcategories of other categories are untouched; products outside the category and outside its still-active subcategories are untouched |
| Catalog.SaveCategory | backend/models/Categoria.js:76-114 | a missing row is not-found; a rename must be valid and unused; the saved row is found by its id and no other category changes; going from active to inactive yields exactly the category cascade, any other save leaves subcategories and products as they were |
| Catalog.SaveSubcategory | backend/models/subcategoria.js:26-159 | a missing row is not-found; succeeds iff a changed name is valid, a changed category exists and a rename or move keeps (name, category) unique; a move to a missing category is a missing reference; the saved row is found by its id; going from active to inactive yields exactly the product cascade of that subcategory; the category table never changes |
| Catalog.SaveProduct | backend/models/Producto.js:29-96 | a missing row is not-found; the changed fields that fail their validators are reported; succeeds iff there are none and each changed parent id names an existing row; on success the row is found by its id with the new values and no other row of any table changes |
| Catalog.CountSubcategories | backend/models/Categoria.js:126-129 | at most the table size, and zero iff no subcategory names the category |
| Catalog.CountProductsOfCategory | backend/models/Categoria.js:138-141 | at most the table size, and zero iff no product names the category |
| Catalog.CountProductsOfSubcategory | backend/models/subcategoria.js:171-174 | at most the table size, and zero iff no product names the subcategory |
| Catalog.CountActiveSubcategories | backend/controllers/categoria.controller.js:418-420 | the active subcategories of a category never outnumber all of its subcategories |
| Catalog.CountActiveProductsOfCategory | backend/controllers/categoria.controller.js:426-428 | the active products of a category never outnumber all of its products |
| Catalog.InactiveSubcategoriesAreTheRest | backend/controllers/categoria.controller.js:460 | counting the inactive subcategories directly gives total minus active |
| Catalog.InactiveProductsAreTheRest | backend/controllers/categoria.controller.js:466 | counting the inactive products directly gives total minus active |
| Catalog.StockTotalBounds | backend/controllers/categoria.controller.js:437-443 | with non-negative stocks the summed stock is non-negative and at least the stock of each product of the category |
| Catalog.CreateCategoryKeepsValid | backend/models/Categoria.js:28-43 | a created category keeps primary keys unique, names unique and every name valid |
| Catalog.CreateSubcategoryKeepsValid | backend/models/subcategoria.js:99-104 | a created subcategory keeps primary keys and (name, category) pairs unique |
| Catalog.CreateProductKeepsValid | backend/models/Producto.js:29-96 | a created product keeps primary keys unique and every product valid |
| Catalog.DeactivateUnderSubcategoryKeepsValid | backend/models/subcategoria.js:135-159 | the product cascade keeps every table guarantee |
| Catalog.DeactivateUnderCategoryKeepsValid | backend/models/Categoria.js:76-114 | the category cascade keeps every table guarantee |
| Catalog.SaveCategoryKeepsValid | backend/models/Categoria.js:28-43 | a saved category, with the cascade it may fire, keeps keys and names unique and valid |
| Catalog.SaveSubcategoryKeepsValid | backend/models/subcategoria.js:26-104 | a saved subcategory, with the cascade it may fire, keeps keys and (name, category) pairs unique and names valid |
| Catalog.ChangedProductErrors | backend/models/Producto.js:29-96 | only fields that fail their validator are reported, and on a valid stored row exactly the failing fields of the new values |
| Catalog.SaveProductKeepsValid | backend/models/Producto.js:29-96 | a saved product keeps keys unique and every product valid |
| Inventory.HasStockAvailable | backend/models/Producto.js:265-267 | true iff the stock covers the requested quantity, 3 when none is given |
| Inventory.ReduceStock | backend/models/Producto.js:270-281 | refused with insufficient stock iff the stock does not cover the quantity; succeeds iff it does and the debited stock passes the stock validator, so from a valid stock and a non-negative quantity iff the stock covers it; on success the stock drops by exactly the quantity and nothing else changes |
| Inventory.IncreaseStock | backend/models/Producto.js:284-293 | the stock rises by exactly the quantity and nothing else changes; it fails iff the result would be negative or above 2,147,483,647, so from a valid stock it succeeds for a non-negative quantity that fits and fails for one that does not |
| Inventory.ReduceThenIncreaseRestores | backend/models/Producto.js:270-293 | a successful debit followed by a credit of the same quantity gives back the original product |
| Inventory.IncreaseThenReduceRestores | backend/models/Producto.js:270-293 | a credit that keeps the stock within the `INTEGER` range, followed by a debit of the same quantity, gives back the original product |
| Inventory.ImageUrl | backend/models/Producto.js:244-257 | null iff the product has no image; otherwise the frontend base URL, defaulting to http://localhost:5000, then `/uploads/`, then the image name |
| Carts.LineErrors | backend/models/Carrito.js:63-93 | reports the quantity iff it is outside 1..2,147,483,647 and the unit price iff it is outside the decimal range |
| Carts.InsertLine | backend/models/Carrito.js:63-111 | succeeds iff the fields are valid and the user has no line for the product; the quantity defaults to 1; exactly one line with an unused id is appended |
| Carts.InsertKeepsPairsUnique | backend/models/Carrito.js:101-111 | inserting never creates a second line for the same (user, product) pair |
| Carts.UserLines | backend/controllers/carrito.controller.js:22-23 | holds exactly the lines of the given user |
| Carts.Summary | backend/controllers/carrito.controller.js:19-65 | the items are exactly the caller's lines, newest first; the item count, the summed quantity and the summed price times quantity are those of the caller's lines |
| Carts.ReverseKeepsSums | backend/controllers/carrito.controller.js:43-60 | listing the lines newest first leaves the quantity and value sums unchanged |
| Carts.SummaryBounds | backend/controllers/carrito.controller.js:56-60 | with valid lines the summed quantity is at least the number of lines and the total is non-negative |
| Orders.ParseStatus | backend/models/Pedido.js:221-226 | a name it recognises is the spelling of the status it returns |
| Orders.ParseStatusName | backend/models/Pedido.js:67-76 | every status's name is recognised and gives back that status |
| Orders.ParseStatusOnlyNames | backend/models/Pedido.js:221-226 | exactly the four names pendiente, pagado, enviado and cancelado are accepted |
| Orders.OrderErrors | backend/models/Pedido.js:45-98 | empty iff the total is within the decimal range and the address and phone are not blank, naming each failing field |
| Orders.NewOrder | backend/models/Pedido.js:45-122 | succeeds iff the fields are valid; the new order is pending with a non-negative total and no timestamps |
| Orders.ChangeStatus | backend/models/Pedido.js:185-230 | an unknown name is refused as an invalid status; otherwise the order takes exactly that status; only the status and the paid and shipped dates may change; entering paid from another status stamps the paid date with `now`, otherwise it is kept; entering shipped from another status with no shipped date stamps it with `now`, otherwise it is kept; re-setting the current status changes nothing |
| Orders.AnyStatusReachable | backend/models/Pedido.js:221-230 | from every status every status can be set: no transition order is enforced |
| Orders.CanCancel | backend/models/Pedido.js:238-240 | true iff the order is pending or paid |
| Orders.LineErrors | backend/models/DetallePedido.js:64-115 | names exactly the failing fields: the quantity iff outside 1..2,147,483,647, the unit price and the subtotal each iff outside the decimal range |
| Orders.LineSubtotal | backend/models/DetallePedido.js:170-172 | non-negative for non-negative inputs and at least the unit price when the quantity is at least 1 |
| Orders.CreateLine | backend/models/DetallePedido.js:145-148 | the stored subtotal equals `calcularSubtotal()` of the stored line; succeeds iff the fields with that subtotal are valid |
| Orders.UpdateLine | backend/models/DetallePedido.js:150-159 | succeeds iff every changed field, the recomputed subtotal included, passes its validator; a change of price or quantity leaves the stored subtotal equal to `calcularSubtotal()`; an update with no change leaves the line as it was; a valid line stays valid |
| Orders.LinesFromCart | backend/models/DetallePedido.js:181-193 | one line per cart item, in order, in the given order, copying product, quantity and unit price, with subtotal equal to the item's value; refused iff some item's fields are invalid |
| Orders.OrderTotal | backend/models/DetallePedido.js:201-211 | 0 for an order without lines |
| Orders.OrderTotalOfConcat | backend/models/DetallePedido.js:201-211 | the order total over two tables is the sum of the totals over each |
| Orders.LinesFromCartTotal | backend/models/DetallePedido.js:181-211 | the lines copied from a cart total exactly the cart's value |
| Orders.OrderTotalNonNegative | backend/models/DetallePedido.js:201-211 | the total of valid lines is non-negative |
| Db.ReserveStock | backend/models/Producto.js:270-281 | by product id: not-found for a missing product; succeeds iff the stock covers the quantity and the debited stock is valid; on success only that product's stock changes, down by the quantity |
| Db.RestockProduct | backend/models/Producto.js:284-293 | by product id: not-found for a missing product; on success only that product's stock changes, up by the quantity |
| Db.ReserveThenRestock | backend/models/Producto.js:270-293 | a successful debit followed by a credit of the same quantity gives back the whole store |
| Db.AddCartLine | backend/models/Carrito.js:29-111 | validators first, then both foreign keys (user and product must exist), then the unique pair; on success only the cart grows, by one line for that user and product |
| Db.CreateOrder | backend/models/Pedido.js:45-122 | validators first, then the user must exist; on success only the order table grows, by one pending order with an unused id, the given user and total, and no payment date |
| Db.CreateDetailsFromCart | backend/models/DetallePedido.js:181-193 | succeeds iff the lines can be built, the order exists and every item's product exists; on success the copied lines are appended and nothing else changes |
| Db.CreateDetailsAddsCartValue | backend/models/DetallePedido.js:181-211 | after copying a cart into an order, that order's total has grown by exactly the cart's value |
| Db.ChangeOrderStatus | backend/models/Pedido.js:221-230 | not-found for a missing order; succeeds iff the name is a status; the order becomes the status change of the old one and no other order or table changes |
| Db.RestockLine | backend/models/Pedido.js:261-267 | a line whose product is gone is skipped; otherwise only stocks change |
| Db.RestockLineCredits | backend/models/Pedido.js:261-267 | with unique product ids, valid stocks and a non-negative quantity that keeps the line's product within the `INTEGER` range, restitution succeeds and credits exactly the line's product by the line's quantity |
| Db.RestockLines | backend/models/Pedido.js:256-267 | restitution over many lines changes only stocks |
| Db.RestockLinesCredits | backend/models/Pedido.js:256-267 | with unique product ids, valid stocks, non-negative quantities and totals that keep each product within the `INTEGER` range, restitution succeeds and each product gains the total quantity of the lines naming it |
| Db.CancelOrder | backend/models/Pedido.js:246-272 | not-found for a missing order; refused unless the order is pending or paid; on success the order's lines restock their products, the order becomes cancelled, and users, cart, lines, categories, subcategories and other orders are unchanged |
| Db.CancelOrderRestocks | backend/models/Pedido.js:246-272 | on a store with unique product ids, valid stocks and valid lines, cancelling a cancellable order whose restitution keeps every stock within the `INTEGER` range succeeds and raises each product's stock by the quantity the order holds of it |
| Db.CancelTwiceRefused | backend/models/Pedido.js:238-249 | a cancelled order cannot be cancelled again |
| Db.DeleteOrder | backend/models/Pedido.js:207-209 | deleting an order always fails, and for an existing order the error says to cancel instead |
| Db.DeleteUser | backend/models/index.js:91-143 | not-found for an unknown user; restricted iff the user has an order; on success exactly the user's cart lines go with the user and nothing else changes |
| Db.DeleteUserKeepsReferences | backend/models/index.js:91-143 | deleting a user leaves every foreign key pointing at an existing row |
| Db.DeleteProduct | backend/models/index.js:111-183 | not-found for an unknown product; restricted iff an order line names it; on success exactly that product and its cart lines go and nothing else changes |
| Db.DeleteProductKeepsReferences | backend/models/index.js:111-183 | deleting a product leaves every foreign key pointing at an existing row |
| Db.DestroySubcategory | backend/models/index.js:71-83 | not-found for an unknown subcategory; refused iff an order line names one of its products; on success the subcategory and exactly its products go, the cart only loses lines, lines of surviving products stay, and users, orders and lines are unchanged |
| Db.DestroySubcategoryKeepsReferences | backend/models/index.js:71-123 | the cascade leaves every foreign key pointing at an existing row |
| Db.DestroyCategory | backend/models/index.js:31-63 | not-found for an unknown category; refused iff an order line names a product that would go; on success the category, exactly its subcategories, and exactly the products of the category or of those subcategories go, the cart only loses lines, and users, orders and lines are unchanged |
| Db.DestroyCategoryKeepsReferences | backend/models/index.js:31-123 | the two-level cascade leaves every foreign key pointing at an existing row |
| Db.AddCartLineKeepsReferences | backend/models/index.js:91-123 | adding a cart line leaves every foreign key pointing at an existing row |
| Db.CreateOrderKeepsReferences | backend/models/index.js:131-143 | creating an order leaves every foreign key pointing at an existing row |
| Db.CreateDetailsKeepsReferences | backend/models/index.js:151-183 | copying a cart into an order leaves every foreign key pointing at an existing row |
| Db.CancelOrderKeepsReferences | backend/models/Pedido.js:246-272 | cancelling an order leaves every foreign key pointing at an existing row |
| Admin.OrNull | backend/controllers/categoria.controller.js:162-166 | null exactly when the description is absent or empty, otherwise the description itself |
| Admin.CreateCategory | backend/controllers/categoria.controller.js:138-191 | a missing or empty name is a missing-fields error; a taken name is a duplicate; succeeds iff the name is present, valid and unused; the new category is active |
| Admin.UpdateCategory | backend/controllers/categoria.controller.js:201-263 | not-found for a missing category; a rename to a name another category has is a duplicate; only the given fields change, and deactivation fires the category cascade |
| Admin.ToggleCategory | backend/controllers/categoria.controller.js:274-323 | fails iff the category is missing; flips its `activo` flag; turning it off deactivates its subcategories and products; turning it on touches no child |
| Admin.ToggleCategoryTwice | backend/controllers/categoria.controller.js:289-293 | two toggles restore the category row; starting from active, the children end as the cascade left them |
| Admin.DeleteCategory | backend/controllers/categoria.controller.js:332-387 | not-found for a missing category; refused iff it still has subcategories or products; on success only that category row goes |
| Admin.Stats | backend/controllers/categoria.controller.js:400-484 | fails iff the category is missing; the counts are the category's total and active subcategories and products; inactive equals total minus active; the stock total is non-negative on a valid catalog |
| Admin.CreateProduct | backend/controllers/productos.controller.js:160-286 | missing fields (a zero price or stock counts as missing) are refused first, then a missing category as not-found, then an inactive one; succeeds iff the category and subcategory exist and are active, the subcategory belongs to the category, stock and price are positive and the field validators pass; the product is created active, with the uploaded image and the given fields |
| Admin.CreateProductRefusesZeroStock | backend/controllers/productos.controller.js:165-170 | a request with stock 0 is refused as missing fields |
| Admin.UpdateProduct | backend/controllers/productos.controller.js:296-402 | not-found for a missing product; succeeds iff a new category and a new subcategory each exist and are active, a new name is valid and not used in the target category, and each changed parent id names an existing row; a rename to a used name is refused; on success only name, description, category, subcategory and `activo` of that product change, and no other row |
| Admin.UpdateProductKeepsPriceAndStock | backend/controllers/productos.controller.js:367-371 | an update never changes price or stock |
| Admin.ToggleSubcategory | backend/controllers/productos.controller.js:411-453 | fails iff the subcategory is missing; flips its `activo` flag; turning it off deactivates its products |
| Admin.DeleteSubcategory | backend/controllers/productos.controller.js:462-504 | not-found for a missing subcategory; refused iff a product belongs to it; on success only that subcategory row goes |
| Paging.Offset | backend/controllers/productos.controller.js:38-50 | page 1 starts at 0, and any page from 1 on with a non-negative limit starts at a non-negative offset |
| Paging.NextPageFollows | backend/controllers/productos.controller.js:50 | page n+1 starts exactly `limit` rows after page n: pages neither overlap nor leave gaps |
| Paging.TotalPages | backend/controllers/productos.controller.js:85 | for a positive limit, the smallest page count whose pages cover all rows; for limit 0, Infinity when there are rows and NaN when there are none |
| Paging.ItemOnItsPage | backend/controllers/productos.controller.js:50-85 | the row at any position below the count lies on a page numbered from 1 to the page count |
| Paging.ListProducts | backend/controllers/productos.controller.js:30-98 | fails iff the limit or the offset is negative; the count is the number of matching products; the rows are the matching products from the offset on, in order, at most `limit` of them, and a full page whenever enough rows remain |
| Tokens.ExtractToken | backend/config/jwt.js:81-90 | a token iff the header is present and starts with "Bearer "; the header is then exactly "Bearer " followed by the token |
| Tokens.MissingHeaderHasNoToken | backend/config/jwt.js:83-89 | an absent or empty header gives no token |
| Tokens.SchemeIsCaseSensitive | backend/config/jwt.js:83 | a header starting "bearer " in lower case, or "Bearer" without the space, gives no token |
| Tokens.ExtractAfterScheme | backend/config/jwt.js:83-85 | "Bearer " followed by any text gives back that text |
| Tokens.SchemeAloneGivesEmptyToken | backend/config/jwt.js:83-85 | the header "Bearer " alone gives the empty token, not none |
| Findings.ReduceStockAsWritten | backend/models/Producto.js:275-281 | as written, every debit fails |
| Findings.ReduceStockAsWrittenFails | backend/models/Producto.js:276 | a debit of 2 from stock 5 fails as written but leaves 3 under the documented method |
| Findings.ImageUrlAsWritten | backend/models/Producto.js:250-257 | as written, no URL exactly when the product has an image, and a URL ending in "null" when it has none |
| Findings.ImageUrlAsWrittenInverted | backend/models/Producto.js:251 | on one product with and without an image, the code as written and the documented method give opposite answers |
| Findings.SaveCategoryAsWritten | backend/models/Categoria.js:76-114 | as written, saving a category never changes a subcategory or product |
| Findings.CategoryCascadeNeverFiresAsWritten | backend/models/Categoria.js:78 | deactivating a category leaves its child active as written and inactive under the documented hook |
| Findings.MismatchGuardAlwaysRejects | backend/controllers/productos.controller.js:205 | the hierarchy guard rejects every pair of ids, equal ones included |
| Findings.CreateProductAsWritten | backend/controllers/productos.controller.js:160-221 | as written, every product creation fails |
| Findings.CreateProductAsWrittenRefuses | backend/controllers/productos.controller.js:205 | a well-formed request under an active category and subcategory is refused as written and accepted by the documented checks |
| Findings.DeleteSubcategoryAsWritten | backend/controllers/productos.controller.js:462-504 | as written at :477, taking the lookup at :467 as fixed: the guard counts products by category id, and a successful delete removes the subcategory's products |
| Findings.DeleteSubcategoryAsWrittenLosesProducts | backend/controllers/productos.controller.js:477 | with the lookup at :467 fixed, a subcategory holding a product is deleted, product included, by the guard as written, and refused under the documented check |
| Findings.UpdateLineAsWritten | backend/models/DetallePedido.js:154-159 | as written, an update never changes the stored subtotal |
| Findings.UpdateLineAsWrittenStale | backend/models/DetallePedido.js:154 | doubling a line's quantity leaves a stale subtotal as written and the recomputed one under the documented hook |
| Findings.CartTotalAsWritten | backend/controllers/carrito.controller.js:46-50 | as written at :46-50, taking the parse error of the module as fixed: the summary succeeds only for an empty cart, and then reports 0 |
| Findings.CartTotalAsWrittenFails | backend/controllers/carrito.controller.js:46-50 | a cart with one line of 2 × 150 fails as written and totals 300 in the summary |
| Findings.ChangeStatusAsWritten | backend/models/Pedido.js:185-230 | as written, on an order read back from the database: the shipped date never changes, and every successful change to paid, re-setting paid included, stamps the paid date with `now` |
| Findings.ShippedAtNeverStampedAsWritten | backend/models/Pedido.js:192 | shipping a pending order leaves the shipped date empty as written and stamps it under the documented hook |
| Findings.StoredStatusName | backend/models/Pedido.js:68 | the spelling a status reads back with: 'Pagado' for paid, which is not a status name, and the status name for every other status |
| Findings.CanCancelAsWritten | backend/models/Pedido.js:238-240 | as written, on an order read back from the database, only a pending order can be cancelled |
| Findings.CancelOrderAsWritten | backend/models/Pedido.js:246-249 | as written, a paid order is refused, and an order that passes the guard is cancelled as documented |
| Findings.PaidOrderAsWritten | backend/models/Pedido.js:68 | a paid order is refused cancellation and has its payment date moved by re-setting 'pagado' as written, while the documented rules cancel it and leave it unchanged |
| Findings.CreateLineAsWritten | backend/models/DetallePedido.js:102-148 | as written, a line created without a subtotal fails the subtotal's `allowNull: false`; with a valid supplied subtotal it is the documented creation |
| Findings.CreateLineAsWrittenNeedsSubtotal | backend/models/DetallePedido.js:184-189 | copying a 2 × 150 cart line fails as written, and the documented hook stores a subtotal of 300 |

## Left out

- The user model (`Usuario`), password hashing, signing and verifying JWTs, the auth middleware, upload handling (multer), deleting image files and the database configuration are not part of this model. They are I/O or foreign libraries.
- HTTP request and response shapes, status codes, messages and logging are left out. Errors are the `Error` variants.
- The response counts of the toggle actions are left out. The state change is modelled.
- Float formatting and `parseFloat` of money are left out. Money is exact cents.
- MySQL's case-insensitive collation is left out. Names compare exactly, character by character.
- The commented-out cart-line `beforeCreate` at `backend/models/Pedido.js:152-177` (product exists and is active, stock suffices, the unit price is copied from the product) is not modelled, and there is no checkout operation that reserves stock for an order.
- Carts.InsertLine: takes the unit price from the caller and does not check the product's activity or stock, because the hook that did so is commented out (see above).
- Db.AddCartLine: takes the unit price from the caller and checks only that the product exists, not that it is active or in stock, for the same reason.
- Admin.CreateProduct: models the request body as parsed JSON numbers. A multipart request, which an image upload needs, carries `precio` and `stock` as text, and the text "0" is not falsy, so the missing-fields guard at `backend/controllers/productos.controller.js:165-170` lets a zero through there.
- Admin.CreateProductRefusesZeroStock: holds for a JSON body only, for the same reason.
- Paging.Query: holds page and limit as integers already parsed. A non-numeric `pagina` or `limite` makes `parseInt` return NaN at `backend/controllers/productos.controller.js:50-85`, which the model does not represent.
- Setting `fechaEntrega` when the status is 'entregado' is left out. That status is not in the status set, so the branch at `backend/models/Pedido.js:198-201` cannot be reached.
- The `STRING(20)` width of the phone column and the `STRING(255)` width of the address column are left out.
- Transactions and concurrency are left out. Each operation is one atomic transition, so a save and the cascade it fires succeed or fail together, as the rethrow inside the update's transaction at `backend/models/Categoria.js:85-111` intends.
- Orders.LinesFromCart: refuses the whole cart when any line is invalid. The source creates lines one by one with no transaction, so the earlier lines would remain.
- Catalog.SaveProduct: checks that the parents exist but does not re-run the `beforeCreate` hierarchy checks. The source runs them only on create, at `backend/models/Producto.js:191-222`.
- Paging.ListProducts: takes the products already ordered by name. Sorting by the database collation is left to the caller.
- Admin.CreateProduct: models the subcategory lookup at `backend/controllers/productos.controller.js:188` as a lookup by the requested id.
- Admin.CreateProduct: models the documented behaviour, not the guards at :205, :213 and :221, which refuse every request (see Findings).
- Admin.UpdateProduct: ignores the `precio` and `stock` fields of the request, as the source does at `backend/controllers/productos.controller.js:367-371`.
- Catalog.Valid: holds the uniqueness and field rules of the catalog tables only. Foreign keys are stated separately, by `Db.ReferencesIntact`.
- Carts.Summary: lists the caller's lines newest first, by reverse insertion order. The source orders by `createdAt DESC` at `backend/controllers/carrito.controller.js:43`, so lines created in the same second may come back in another order.
- Primary keys are unbounded naturals. The `INTEGER` width of the id columns is left out.
- The other evidently broken spots below have no as-written member. The model follows the intended behaviour at each of them, and where a modelled member lies on the path, a comment at that member cites the line:
  - `backend/models/Producto.js:193-196` declares `subcategoria` twice, so the module does not load.
  - `backend/models/subcategoria.js:171` and `:181` refer to an undefined `subcategoria` when the module loads.
  - `backend/controllers/categoria.controller.js:207`, `:279`, `:337` and `:405` call `findByPK`, which Sequelize does not define, so updating, toggling, deleting and the statistics of a category throw; `:232` reads an undeclared `activo`.
  - `backend/controllers/productos.controller.js:188` passes an object to `findByPk`, and `:416` and `:467` call `findByPK`, so toggling and deleting a subcategory throw.
  - `backend/controllers/productos.controller.js:310`, `:328` and `:348` use the undefined `producto.productoId`, `:329` looks the subcategory up by `categoriaId`, and `:371` reads an undeclared `activo`.
  - `backend/models/DetallePedido.js:181` names the parameter `npedidoId`, but `:185` reads `pedidoId`.
  - `backend/models/Categoria.js:82` and `:127` require `./Subcategorias`, which does not exist, so the category cascade and `contarSubcategorias` throw.
  - `backend/controllers/carrito.controller.js:20` opens a `try` that `:64` closes with neither `catch` nor `finally`, so the module does not parse and `getCarrito` never runs.
  - `backend/controllers/productos.controller.js:592-599` exports `getSubcategorias`, `getSubcategoriasById`, `crearSubcategoria` and `actualizarSubcategoria`, which are not defined, so the module does not load.
  - `backend/models/Carrito.js:176` assigns to `subcategoria.prototype`, which is undefined, `:181-205` is a stray fragment of the category model that does not parse, and the file exports nothing, so the cart model does not load. Its hooks at `:117-165` are pasted from the subcategory model: `beforeCreate` at `:122-135` looks up a category by the line's undefined `categoriaId` and throws 'La categoria seleccionada no existe' on every insert.
  - `backend/models/index.js:190-202` passes `through` to `hasMany`, which Sequelize refuses (`through` belongs to `belongsToMany`), so the associations fail when they load.
  - `backend/models/index.js:159` gives `DetallePedido.belongsTo(Pedido)` the foreign key `pedidosId`, while `:152` and the column use `pedidoId`.
  - `backend/models/DetallePedido.js:55` spells the delete rule `'RESTRIC'`; the model uses `RESTRICT`, as the association at `backend/models/index.js:171-183` declares.
  - `backend/models/Carrito.js:29` and `:46`, `backend/models/Pedido.js:28` and `backend/models/DetallePedido.js:47` declare the columns `UsuarioId` and `ProductoId`, while the associations and controllers use `usuarioId` and `productoId`; the model has one foreign key per reference.
  - `backend/models/Pedido.js:45` spells the total column `tottal`; the model calls it `total`, as the comment and the messages at `:44-54` do.
  - `backend/models/index.js:10`, `backend/controllers/categoria.controller.js:12`, `backend/controllers/productos.controller.js:12` and `backend/controllers/carrito.controller.js:11` require `Subcategoria`, but the file is `subcategoria.js`, which a case-sensitive file system does not find.

## Findings

| source | as written | input that shows it | evidently intended | confidence | as-written member | corrected member |
|---|---|---|---|---|---|---|
| backend/models/Producto.js:276 | the guard calls `this.hayStock`, which is undefined, so every call throws; the guard also lacks its `!`, so once the name is fixed it throws exactly when the stock suffices | product with stock 5, debit 2 | debit when `hayStockDisponible` holds, else "Stock insuficiente" | not executed | Findings.ReduceStockAsWritten, Findings.ReduceStockAsWrittenFails | Inventory.ReduceStock |
| backend/models/Producto.js:251 | `if (this.imagen)` returns null for products WITH an image | product with image "camisa.png", and the same product with none | null without an image, the upload URL with one | not executed | Findings.ImageUrlAsWritten, Findings.ImageUrlAsWrittenInverted | Inventory.ImageUrl |
| backend/models/Categoria.js:78 | the hook tests `changed('Activo')`, but the attribute is `activo` | deactivating category 1 with an active subcategory and product | deactivation cascades to subcategories and products | not executed | Findings.SaveCategoryAsWritten, Findings.CategoryCascadeNeverFiresAsWritten | Catalog.SaveCategory |
| backend/controllers/productos.controller.js:205 | `!subcategoria.categoriaId !== parseInt(categoriaId)` compares a boolean with a number, so it always holds; the stock and price guards at :213 and :221 reject every request as well | well-formed request for subcategory 2 of category 1 | refuse only a subcategory of another category | not executed | Findings.CreateProductAsWritten, Findings.CreateProductAsWrittenRefuses | Admin.CreateProduct |
| backend/controllers/productos.controller.js:477 | counts products whose `categoriaId` equals the subcategory's id (reached once the `findByPK` at :467 is fixed) | subcategory 2 holding one product of category 1 | refuse while the subcategory has products | not executed | Findings.DeleteSubcategoryAsWritten, Findings.DeleteSubcategoryAsWrittenLosesProducts | Admin.DeleteSubcategory |
| backend/models/DetallePedido.js:154 | hook registered as 'BeforeUpdate', which Sequelize ignores | line of 1 × 100 updated to quantity 2 | subtotal recomputed to 200 | not executed | Findings.UpdateLineAsWritten, Findings.UpdateLineAsWrittenStale | Orders.UpdateLine |
| backend/controllers/carrito.controller.js:46-50 | adds into an undeclared `total`; `totalCarrito` stays 0 (reached once the parse error at :20-64 is fixed) | cart with one line of 2 × 150 | total 300 | not executed | Findings.CartTotalAsWritten, Findings.CartTotalAsWrittenFails | Carts.Summary |
| backend/models/Pedido.js:192 | `fechaEnvio` is stamped only when the status did NOT change, and an unchanged status skips the hook | pending order set to 'enviado' | stamp the shipping date on entering 'enviado' | not executed | Findings.ChangeStatusAsWritten, Findings.ShippedAtNeverStampedAsWritten | Orders.ChangeStatus |
| backend/models/Pedido.js:68 | the `ENUM` declares 'Pagado', so a paid row reads back as 'Pagado': `puedeCancelar` at :239 refuses it, and `cambiarEstado('pagado')` counts as a change and stamps `fechaPago` again | paid order with payment date 10, cancelled, or set to 'pagado' at time 42 | the `ENUM` member 'pagado': a paid order can be cancelled, and re-setting its status changes nothing | not executed | Findings.CanCancelAsWritten, Findings.CancelOrderAsWritten, Findings.ChangeStatusAsWritten, Findings.PaidOrderAsWritten | Orders.CanCancel, Db.CancelOrder, Orders.ChangeStatus |
| backend/models/DetallePedido.js:145-148 | the subtotal is computed in `beforeCreate`, but Sequelize validates before that hook, so `crearDesdeCarrito`, which passes no subtotal, fails `allowNull: false` | cart line of 2 × 150 | compute the subtotal, then validate it | not executed | Findings.CreateLineAsWritten, Findings.CreateLineAsWrittenNeedsSubtotal | Orders.CreateLine |

=== FILE: admin.dfy ===
/** The administration controllers for categories, subcategories and
    products: the request checks they make before touching the models,
    and the effect of the model operation they then call. Request bodies
    are parsed values; an absent field is `None`. */
module Admin {
  import opened Outcomes
  import opened Tables
  import opened Catalog

  /** JavaScript truthiness of an optional text field: absent and "" are
      falsy. */
  predicate Present(s: Option<string>) {
    s.Some? && s.value != ""
  }

  /** JavaScript truthiness of an optional number: absent and 0 are falsy. */
  predicate PresentNumber(n: Option<int>) {
    n.Some? && n.value != 0
  }

  /** `descripcion || null`. */
  function OrNull(s: Option<string>): (r: Option<string>)
    ensures r.Some? <==> Present(s)
    ensures r.Some? ==> r == s
  {
    if Present(s) then s else None
  }

  // ---------------------------------------------------------------------
  // Categories
  // ---------------------------------------------------------------------

  /** `crearCategoria`: the name is required and must not be taken; the
      category is created active, with `descripcion` null when none is
      given. */
  function CreateCategory(h: Hierarchy, name: Option<string>, description: Option<string>): (r: Result<Hierarchy>)
    ensures !Present(name) ==> r == Err(MissingFields)
    ensures Present(name) && CategoryNameTaken(h.categories, name.value) ==> r == Err(Duplicate)
    ensures r.Ok? <==> Present(name) && ValidCategoryName(name.value) && !CategoryNameTaken(h.categories, name.value)
    ensures r.Ok? ==>
      && r.value.subcategories == h.subcategories
      && r.value.products == h.products
      && |r.value.categories| == |h.categories| + 1
      && r.value.categories[..|h.categories|] == h.categories
      && var c := r.value.categories[|h.categories|];
         && FindCategory(h, c.id).None?
         && c.name == name.value && c.description == OrNull(description) && c.active
  {
    if !Present(name) then Err(MissingFields)
    else if CategoryNameTaken(h.categories, name.value) then Err(Duplicate)
    else Catalog.CreateCategory(h, name.value, OrNull(description), Some(true))
  }

  /** `actualizarCategoria`: a rename must not take another category's
      name; only the supplied fields change; the save runs the
      deactivation cascade. */
  function UpdateCategory(h: Hierarchy, id: Id, name: Option<string>, description: Option<Option<string>>, active: Option<bool>)
    : (r: Result<Hierarchy>)
    ensures FindCategory(h, id).None? ==> r == Err(NotFound)
    ensures FindCategory(h, id).Some? ==>
      var prev := FindCategory(h, id).value;
      var next := prev.(name := if name.Some? then name.value else prev.name,
                        description := if description.Some? then description.value else prev.description,
                        active := if active.Some? then active.value else prev.active);
      && (r.Ok? <==> next.name == prev.name || (ValidCategoryName(next.name) && !CategoryNameTaken(h.categories, next.name)))
      && (Present(name) && name.value != prev.name && CategoryNameTaken(h.categories, name.value) ==> r == Err(Duplicate))
      && (r.Ok? ==>
            && FindCategory(r.value, id) == Some(next)
            && |r.value.categories| == |h.categories|
            && (forall j :: 0 <= j < |h.categories| && h.categories[j].id != id ==> r.value.categories[j] == h.categories[j])
            && (prev.active && !next.active ==>
                  r.value.subcategories == DeactivateUnderCategory(h, id).subcategories
                  && r.value.products == DeactivateUnderCategory(h, id).products)
            && (!(prev.active && !next.active) ==>
                  r.value.subcategories == h.subcategories && r.value.products == h.products))
  {
    // backend/controllers/categoria.controller.js:207 calls `findByPK`,
    // which Sequelize does not define, and :232 reads an `activo` that is
    // never taken from the body; the lookup by primary key and the
    // `activo` body field are modelled.
    match FindCategory(h, id)
    case None => Err(NotFound)
    case Some(prev) =>
      if Present(name) && name.value != prev.name && CategoryNameTaken(h.categories, name.value) then Err(Duplicate)
      else
        var next := prev.(name := if name.Some? then name.value else prev.name,
                          description := if description.Some? then description.value else prev.description,
                          active := if active.Some? then active.value else prev.active);
        SaveCategory(h, next)
  }

  /** `toggleCategoria`: the active flag is negated and saved; turning a
      category off runs the deactivation cascade. */
  function ToggleCategory(h: Hierarchy, id: Id): (r: Result<Hierarchy>)
    ensures FindCategory(h, id).None? <==> r.Err?
    ensures r.Err? ==> r.error == NotFound
    ensures r.Ok? ==>
      var prev := FindCategory(h, id).value;
      && FindCategory(r.value, id) == Some(prev.(active := !prev.active))
      && |r.value.categories| == |h.categories|
      && (forall j :: 0 <= j < |h.categories| && h.categories[j].id != id ==> r.value.categories[j] == h.categories[j])
      && (prev.active ==>
            r.value.subcategories == DeactivateUnderCategory(h, id).subcategories
            && r.value.products == DeactivateUnderCategory(h, id).products)
      && (!prev.active ==> r.value.subcategories == h.subcategories && r.value.products == h.products)
  {
    // backend/controllers/categoria.controller.js:279 calls `findByPK`,
    // which Sequelize does not define; the lookup by primary key is
    // modelled.
    match FindCategory(h, id)
    case None => Err(NotFound)
    case Some(c) => SaveCategory(h, c.(active := !c.active))
  }

  /** Toggling twice restores the category's flag, but activation does
      not undo the cascade: from an active category, the children the
      first toggle closed stay closed. */
  lemma ToggleCategoryTwice(h: Hierarchy, id: Id)
    requires FindCategory(h, id).Some?
    ensures ToggleCategory(h, id).Ok?
    ensures ToggleCategory(ToggleCategory(h, id).value, id).Ok?
    ensures FindCategory(ToggleCategory(ToggleCategory(h, id).value, id).value, id) == FindCategory(h, id)
    ensures FindCategory(h, id).value.active ==>
      ToggleCategory(ToggleCategory(h, id).value, id).value.subcategories == DeactivateUnderCategory(h, id).subcategories
      && ToggleCategory(ToggleCategory(h, id).value, id).value.products == DeactivateUnderCategory(h, id).products
  {
  }

  function NotCategory(id: Id): Category -> bool {
    (c: Category) => c.id != id
  }

  /** `eliminarCategoria`: refused while any subcategory or any product
      names the category; otherwise only the category row is removed. */
  function DeleteCategory(h: Hierarchy, id: Id): (r: Result<Hierarchy>)
    ensures FindCategory(h, id).None? ==> r == Err(NotFound)
    ensures FindCategory(h, id).Some? ==>
      (r.Ok? <==> CountSubcategories(h.subcategories, id) == 0 && CountProductsOfCategory(h.products, id) == 0)
    ensures FindCategory(h, id).Some? && r.Err? ==> r.error == HasDependents
    ensures r.Ok? ==>
      && (forall c :: c in r.value.categories <==> c in h.categories && c.id != id)
      && FindCategory(r.value, id).None?
      && r.value.subcategories == h.subcategories && r.value.products == h.products
  {
    // backend/controllers/categoria.controller.js:337 calls `findByPK`,
    // which Sequelize does not define; the lookup by primary key is
    // modelled.
    match FindCategory(h, id)
    case None => Err(NotFound)
    case Some(_) =>
      if CountSubcategories(h.subcategories, id) > 0 then Err(HasDependents)
      else if CountProductsOfCategory(h.products, id) > 0 then Err(HasDependents)
      else
        var cats := Filter(h.categories, NotCategory(id));
        assert forall j :: 0 <= j < |cats| ==> cats[j] in cats;
        Ok(h.(categories := cats))
  }

  /** The integer part of `getEstadisticasCategoria`. */
  datatype CategoryStats = CategoryStats(
    subcategoriesTotal: nat,
    subcategoriesActive: nat,
    subcategoriesInactive: int,
    productsTotal: nat,
    productsActive: nat,
    productsInactive: int,
    stockTotal: int,
    inventoryValue: Cents)

  /** `getEstadisticasCategoria`: counts by `categoriaId`, the inactive
      counts as total minus active, and the stock and inventory sums. */
  function Stats(h: Hierarchy, id: Id): (r: Result<CategoryStats>)
    ensures FindCategory(h, id).None? <==> r.Err?
    ensures r.Err? ==> r.error == NotFound
    ensures r.Ok? ==>
      && r.value.subcategoriesTotal == CountSubcategories(h.subcategories, id)
      && r.value.subcategoriesActive == CountActiveSubcategories(h.subcategories, id)
      && r.value.subcategoriesActive <= r.value.subcategoriesTotal
      && r.value.subcategoriesInactive == CountInactiveSubcategories(h.subcategories, id)
      && r.value.productsTotal == CountProductsOfCategory(h.products, id)
      && r.value.productsActive == CountActiveProductsOfCategory(h.products, id)
      && r.value.productsActive <= r.value.productsTotal
      && r.value.productsInactive == CountInactiveProductsOfCategory(h.products, id)
      && r.value.stockTotal == StockTotal(h.products, id)
      && r.value.inventoryValue == InventoryValue(h.products, id)
    ensures r.Ok? && Valid(h) ==> r.value.stockTotal >= 0
  {
    // backend/controllers/categoria.controller.js:405 calls `findByPK`,
    // which Sequelize does not define; the lookup by primary key is
    // modelled.
    match FindCategory(h, id)
    case None => Err(NotFound)
    case Some(_) =>
      var subsTotal := CountSubcategories(h.subcategories, id);
      var subsActive := CountActiveSubcategories(h.subcategories, id);
      var productsTotal := CountProductsOfCategory(h.products, id);
      var productsActive := CountActiveProductsOfCategory(h.products, id);
      InactiveSubcategoriesAreTheRest(h.subcategories, id);
      InactiveProductsAreTheRest(h.products, id);
      StockTotalBoundsWhenValid(h, id);
      Ok(CategoryStats(subsTotal, subsActive, subsTotal - subsActive,
                       productsTotal, productsActive, productsTotal - productsActive,
                       StockTotal(h.products, id), InventoryValue(h.products, id)))
  }

  lemma StockTotalBoundsWhenValid(h: Hierarchy, id: Id)
    ensures Valid(h) ==> StockTotal(h.products, id) >= 0
  {
    if Valid(h) {
      StockTotalBounds(h.products, id);
    }
  }

  // ---------------------------------------------------------------------
  // Products
  // ---------------------------------------------------------------------

  /** The body of `crearProductos`, parsed; `upload` is the stored file
      name of the uploaded image, if any. */
  datatype ProductRequest = ProductRequest(
    name: Option<string>,
    description: Option<string>,
    price: Option<Cents>,
    stock: Option<int>,
    categoryId: Option<Id>,
    subcategoryId: Option<Id>,
    upload: Option<string>)

  /** `!nombre || !precio || !stock || !categoriaId || !subcategoriaId`
      rejects: a price or a stock of 0 counts as missing. */
  predicate RequiredPresent(q: ProductRequest) {
    && Present(q.name)
    && PresentNumber(q.price)
    && PresentNumber(q.stock)
    && q.categoryId.Some? && q.categoryId.value != 0
    && q.subcategoryId.Some? && q.subcategoryId.value != 0
  }

  /** The draft `crearProductos` hands to `Producto.create`. */
  function DraftOf(q: ProductRequest): ProductDraft
    requires RequiredPresent(q)
  {
    ProductDraft(q.name.value, OrNull(q.description), q.price.value, Some(q.stock.value), q.upload,
                 q.subcategoryId.value, q.categoryId.value, Some(true))
  }

  /** The request is accepted by every check of the controller. */
  predicate AcceptedRequest(h: Hierarchy, q: ProductRequest)
    requires RequiredPresent(q)
  {
    && FindCategory(h, q.categoryId.value).Some? && FindCategory(h, q.categoryId.value).value.active
    && FindSubcategory(h, q.subcategoryId.value).Some? && FindSubcategory(h, q.subcategoryId.value).value.active
    && FindSubcategory(h, q.subcategoryId.value).value.categoryId == q.categoryId.value
    && q.stock.value > 0 && q.price.value > 0
  }

  /** `crearProductos`: required fields, an active category, an active
      subcategory of that category, a positive stock and price; then
      `Producto.create` with the product active, the uploaded file as
      image and `descripcion` null when absent. */
  function CreateProduct(h: Hierarchy, q: ProductRequest): (r: Result<Hierarchy>)
    ensures !RequiredPresent(q) ==> r == Err(MissingFields)
    ensures RequiredPresent(q) && FindCategory(h, q.categoryId.value).None? ==> r == Err(NotFound)
    ensures RequiredPresent(q) && FindCategory(h, q.categoryId.value).Some? && !FindCategory(h, q.categoryId.value).value.active
      ==> r == Err(ParentInactive)
    ensures r.Ok? <==>
      && RequiredPresent(q) && AcceptedRequest(h, q)
      && ProductFieldErrors(q.name.value, q.price.value, q.stock.value, q.upload) == {}
    ensures r.Ok? ==>
      && r.value.categories == h.categories
      && r.value.subcategories == h.subcategories
      && |r.value.products| == |h.products| + 1
      && r.value.products[..|h.products|] == h.products
      && var p := r.value.products[|h.products|];
         && FindProduct(h, p.id).None?
         && p.active && p.image == q.upload && p.description == OrNull(q.description)
         && p.name == q.name.value && p.price == q.price.value && p.stock == q.stock.value
         && p.categoryId == q.categoryId.value && p.subcategoryId == q.subcategoryId.value
         && ValidProduct(p)
  {
    if !RequiredPresent(q) then Err(MissingFields)
    else
      var cid := q.categoryId.value;
      var sid := q.subcategoryId.value;
      match FindCategory(h, cid)
      case None => Err(NotFound)
      case Some(c) =>
        if !c.active then Err(ParentInactive)
        else
          // backend/controllers/productos.controller.js:188 passes an object
          // to `findByPk`; the lookup by `subcategoriaId` is modelled.
          match FindSubcategory(h, sid)
          case None => Err(NotFound)
          case Some(s) =>
            if !s.active then Err(ParentInactive)
            // :205 compares `!subcategoria.categoriaId` (a boolean) with a
            // number and so always rejects; the comparison of the two ids
            // is modelled.
            else if s.categoryId != cid then Err(HierarchyMismatch)
            // :213 and :221 reject every non-zero stock and price; the
            // rejection of a negative stock and a non-positive price their
            // messages describe is modelled.
            else if q.stock.value < 0 then Err(Invalid({Stock}))
            else if q.price.value <= 0 then Err(Invalid({Price}))
            else Catalog.CreateProduct(h, DraftOf(q))
  }

  /** A stock of 0 in the body is refused as a missing field. */
  lemma CreateProductRefusesZeroStock(h: Hierarchy, q: ProductRequest)
    requires q.stock == Some(0)
    ensures CreateProduct(h, q) == Err(MissingFields)
  {
  }

  /** Some product of category `cid` is named `name`. */
  predicate ProductNameTakenIn(ps: seq<Product>, name: string, cid: Id) {
    exists i :: 0 <= i < |ps| && ps[i].name == name && ps[i].categoryId == cid
  }

  /** The product `actualizarProducto` saves: the supplied fields replace
      the stored ones; `precio` and `stock` are read from the body but never
      applied. */
  function UpdatedProduct(p: Product, name: Option<string>, description: Option<Option<string>>,
                          categoryId: Option<Id>, subcategoryId: Option<Id>, active: Option<bool>): Product {
    p.(name := if name.Some? then name.value else p.name,
       description := if description.Some? then description.value else p.description,
       categoryId := if categoryId.Some? then categoryId.value else p.categoryId,
       subcategoryId := if subcategoryId.Some? then subcategoryId.value else p.subcategoryId,
       active := if active.Some? then active.value else p.active)
  }

  /** The category a renamed product is checked against: the new one when
      given, else its current one. */
  function TargetCategory(p: Product, categoryId: Option<Id>): Id {
    if PresentNumber(categoryId) then categoryId.value else p.categoryId
  }

  /** `actualizarProducto`: a new category or subcategory must exist and be
      active; a new name must not be used in the target category; then the
      supplied fields are saved. */
  function UpdateProduct(h: Hierarchy, id: Id, name: Option<string>, description: Option<Option<string>>,
                         categoryId: Option<Id>, subcategoryId: Option<Id>, active: Option<bool>): (r: Result<Hierarchy>)
    ensures FindProduct(h, id).None? ==> r == Err(NotFound)
    ensures FindProduct(h, id).Some? ==>
      var prev := FindProduct(h, id).value;
      && ((Present(name) && name.value != prev.name && ProductNameTakenIn(h.products, name.value, TargetCategory(prev, categoryId)))
            ==> r.Err?)
      && (r.Ok? <==>
            && (PresentNumber(categoryId) && categoryId.value != prev.categoryId ==>
                  FindCategory(h, categoryId.value).Some? && FindCategory(h, categoryId.value).value.active)
            && (PresentNumber(subcategoryId) && subcategoryId.value != prev.subcategoryId ==>
                  FindSubcategory(h, subcategoryId.value).Some? && FindSubcategory(h, subcategoryId.value).value.active)
            && !(Present(name) && name.value != prev.name && ProductNameTakenIn(h.products, name.value, TargetCategory(prev, categoryId)))
            && var next := UpdatedProduct(prev, name, description, categoryId, subcategoryId, active);
               && (next.name == prev.name || ValidProductName(next.name))
               && (next.categoryId == prev.categoryId || FindCategory(h, next.categoryId).Some?)
               && (next.subcategoryId == prev.subcategoryId || FindSubcategory(h, next.subcategoryId).Some?))
      && (r.Ok? ==>
            && FindProduct(r.value, id) == Some(UpdatedProduct(prev, name, description, categoryId, subcategoryId, active))
            && r.value.categories == h.categories && r.value.subcategories == h.subcategories
            && |r.value.products| == |h.products|
            && (forall j :: 0 <= j < |h.products| && h.products[j].id != id ==> r.value.products[j] == h.products[j])
            && (PresentNumber(categoryId) && categoryId.value != prev.categoryId ==>
                  FindCategory(h, categoryId.value).Some? && FindCategory(h, categoryId.value).value.active)
            && (PresentNumber(subcategoryId) && subcategoryId.value != prev.subcategoryId ==>
                  FindSubcategory(h, subcategoryId.value).Some? && FindSubcategory(h, subcategoryId.value).value.active))
  {
    match FindProduct(h, id)
    case None => Err(NotFound)
    case Some(prev) =>
      // backend/controllers/productos.controller.js:310 and :328 compare
      // with `producto.productoId`, which is undefined, :329 looks the new
      // subcategory up by `categoriaId`, :348 falls back to `productoId`,
      // and :371 reads an `activo` never taken from the body; the
      // comparisons with the product's own category and subcategory, the
      // lookup by `subcategoriaId`, the fallback to the current category
      // and the `activo` body field are modelled.
      if PresentNumber(categoryId) && categoryId.value != prev.categoryId && FindCategory(h, categoryId.value).None? then
        Err(NotFound)
      else if PresentNumber(categoryId) && categoryId.value != prev.categoryId && !FindCategory(h, categoryId.value).value.active then
        Err(ParentInactive)
      else if PresentNumber(subcategoryId) && subcategoryId.value != prev.subcategoryId && FindSubcategory(h, subcategoryId.value).None? then
        Err(NotFound)
      else if PresentNumber(subcategoryId) && subcategoryId.value != prev.subcategoryId && !FindSubcategory(h, subcategoryId.value).value.active then
        Err(ParentInactive)
      else if Present(name) && name.value != prev.name && ProductNameTakenIn(h.products, name.value, TargetCategory(prev, categoryId)) then
        Err(Duplicate)
      else
        SaveProduct(h, UpdatedProduct(prev, name, description, categoryId, subcategoryId, active))
  }

  /** An update never changes a product's price or stock. */
  lemma UpdateProductKeepsPriceAndStock(h: Hierarchy, id: Id, name: Option<string>, description: Option<Option<string>>,
                                        categoryId: Option<Id>, subcategoryId: Option<Id>, active: Option<bool>)
    requires UpdateProduct(h, id, name, description, categoryId, subcategoryId, active).Ok?
    ensures FindProduct(UpdateProduct(h, id, name, description, categoryId, subcategoryId, active).value, id).Some?
    ensures FindProduct(UpdateProduct(h, id, name, description, categoryId, subcategoryId, active).value, id).value.price
         == FindProduct(h, id).value.price
    ensures FindProduct(UpdateProduct(h, id, name, description, categoryId, subcategoryId, active).value, id).value.stock
         == FindProduct(h, id).value.stock
  {
  }

  // ---------------------------------------------------------------------
  // Subcategories
  // ---------------------------------------------------------------------

  /** `toggleSubCategoria`: the active flag is negated and saved; turning a
      subcategory off deactivates its products. */
  function ToggleSubcategory(h: Hierarchy, id: Id): (r: Result<Hierarchy>)
    ensures FindSubcategory(h, id).None? <==> r.Err?
    ensures r.Err? ==> r.error == NotFound
    ensures r.Ok? ==>
      var prev := FindSubcategory(h, id).value;
      && FindSubcategory(r.value, id) == Some(prev.(active := !prev.active))
      && r.value.categories == h.categories
      && |r.value.subcategories| == |h.subcategories|
      && (forall j :: 0 <= j < |h.subcategories| && h.subcategories[j].id != id ==> r.value.subcategories[j] == h.subcategories[j])
      && (prev.active ==> r.value.products == DeactivateUnderSubcategory(h, id).products)
      && (!prev.active ==> r.value.products == h.products)
  {
    // backend/controllers/productos.controller.js:416 calls `findByPK`; the
    // lookup by primary key is modelled.
    match FindSubcategory(h, id)
    case None => Err(NotFound)
    case Some(s) => SaveSubcategory(h, s.(active := !s.active))
  }

  function NotSubcategory(id: Id): Subcategory -> bool {
    (s: Subcategory) => s.id != id
  }

  /** `eliminarSubCategoria`: refused while any product names the
      subcategory; otherwise only the subcategory row is removed. */
  function DeleteSubcategory(h: Hierarchy, id: Id): (r: Result<Hierarchy>)
    ensures FindSubcategory(h, id).None? ==> r == Err(NotFound)
    ensures FindSubcategory(h, id).Some? ==>
      (r.Ok? <==> forall i :: 0 <= i < |h.products| ==> h.products[i].subcategoryId != id)
    ensures FindSubcategory(h, id).Some? && r.Err? ==> r.error == HasDependents
    ensures r.Ok? ==>
      && (forall s :: s in r.value.subcategories <==> s in h.subcategories && s.id != id)
      && FindSubcategory(r.value, id).None?
      && r.value.categories == h.categories && r.value.products == h.products
  {
    // backend/controllers/productos.controller.js:467 calls `findByPK`, which
    // Sequelize does not define, and :477 counts the products whose
    // `categoriaId` is the subcategory's id; the lookup by primary key and
    // the count by `subcategoriaId` its comment describes are modelled.
    match FindSubcategory(h, id)
    case None => Err(NotFound)
    case Some(_) =>
      if CountProductsOfSubcategory(h.products, id) > 0 then Err(HasDependents)
      else
        var subs := Filter(h.subcategories, NotSubcategory(id));
        assert forall j :: 0 <= j < |subs| ==> subs[j] in subs;
        Ok(h.(subcategories := subs))
  }
}

=== FILE: carts.dfy ===
/** Shopping-cart lines (`Carrito`) and the read-only cart summary of
    `getCarrito`. */
module Carts {
  import opened Outcomes
  import opened Tables
  import Catalog

  datatype CartLine = CartLine(
    id: Id,
    userId: Id,
    productId: Id,
    quantity: int,
    unitPrice: Catalog.Cents)

  function CartLineKey(l: CartLine): Id { l.id }

  /** `cantidad` defaults to 1. */
  const DefaultQuantity: int := 1

  /** `isInt` and `min: 1` on `cantidad`, within the range of its
      `INTEGER` column; the same rule holds on an order line. */
  predicate ValidQuantity(q: int) {
    1 <= q <= Catalog.MaxInt
  }

  /** Every cart-line field whose validator fails. */
  function LineErrors(quantity: int, unitPrice: Catalog.Cents): (r: set<Field>)
    ensures r == {} <==> ValidQuantity(quantity) && Catalog.ValidPrice(unitPrice)
    ensures Quantity in r <==> !ValidQuantity(quantity)
    ensures UnitPrice in r <==> !Catalog.ValidPrice(unitPrice)
  {
    (if ValidQuantity(quantity) then {} else {Quantity})
    + (if Catalog.ValidPrice(unitPrice) then {} else {UnitPrice})
  }

  predicate ValidLine(l: CartLine) {
    ValidQuantity(l.quantity) && Catalog.ValidPrice(l.unitPrice)
  }

  /** The unique index `usuario_producto_unique`: at most one line per
      (user, product). */
  predicate UniquePairs(lines: seq<CartLine>) {
    forall i, j :: 0 <= i < j < |lines| ==>
      lines[i].userId != lines[j].userId || lines[i].productId != lines[j].productId
  }

  predicate PairTaken(lines: seq<CartLine>, userId: Id, productId: Id) {
    exists i :: 0 <= i < |lines| && lines[i].userId == userId && lines[i].productId == productId
  }

  /** `Carrito.create`: the validators, then the unique index, then the
      insert; the quantity defaults to 1. The unit price is the caller's:
      the cart-line `beforeCreate` that would read it from the product sits
      commented out in `backend/models/Pedido.js:152-177`.
      As written, `backend/models/Carrito.js` does not load (`:176` names an
      undefined `subcategoria`, `:181-205` is a stray fragment, nothing is
      exported), and its `beforeCreate` at `:122-135`, pasted from the
      subcategory model, looks up a category by the line's undefined
      `categoriaId` and so refuses every insert. This models the insert
      without that hook. */
  function InsertLine(lines: seq<CartLine>, userId: Id, productId: Id, quantity: Option<int>, unitPrice: Catalog.Cents)
    : (r: Result<seq<CartLine>>)
    ensures var q := if quantity.Some? then quantity.value else DefaultQuantity;
      && (r.Ok? <==> LineErrors(q, unitPrice) == {} && !PairTaken(lines, userId, productId))
      && (LineErrors(q, unitPrice) != {} ==> r == Err(Invalid(LineErrors(q, unitPrice))))
      && (LineErrors(q, unitPrice) == {} && PairTaken(lines, userId, productId) ==> r == Err(Duplicate))
      && (r.Ok? ==>
            && |r.value| == |lines| + 1 && r.value[..|lines|] == lines
            && var l := r.value[|lines|];
               l.userId == userId && l.productId == productId && l.quantity == q && l.unitPrice == unitPrice
               && !HasKey(lines, CartLineKey, l.id))
  {
    var q := if quantity.Some? then quantity.value else DefaultQuantity;
    var errs := LineErrors(q, unitPrice);
    if errs != {} then Err(Invalid(errs))
    else if PairTaken(lines, userId, productId) then Err(Duplicate)
    else Ok(lines + [CartLine(FreshKey(lines, CartLineKey), userId, productId, q, unitPrice)])
  }

  /** An insert never creates a second line for a (user, product) pair. */
  lemma InsertKeepsPairsUnique(lines: seq<CartLine>, userId: Id, productId: Id, quantity: Option<int>, unitPrice: Catalog.Cents)
    requires UniquePairs(lines)
    ensures InsertLine(lines, userId, productId, quantity, unitPrice).Ok? ==>
      UniquePairs(InsertLine(lines, userId, productId, quantity, unitPrice).value)
  {
    var r := InsertLine(lines, userId, productId, quantity, unitPrice);
    if r.Ok? {
      var ls := r.value;
      forall i, j | 0 <= i < j < |ls|
        ensures ls[i].userId != ls[j].userId || ls[i].productId != ls[j].productId
      {
        assert ls[i] == lines[i];
        if j < |lines| {
          assert ls[j] == lines[j];
        }
      }
    }
  }

  // ---------------------------------------------------------------------
  // Read-only summary (getCarrito)
  // ---------------------------------------------------------------------

  /** Price of one line: unit price times quantity. */
  function LineValue(l: CartLine): int {
    l.unitPrice * l.quantity
  }

  /** Sum of `precioUnitario * cantidad` over the lines. */
  function CartValue(lines: seq<CartLine>): int {
    if |lines| == 0 then 0 else LineValue(lines[0]) + CartValue(lines[1..])
  }

  /** Sum of `cantidad` over the lines. */
  function QuantitySum(lines: seq<CartLine>): int {
    if |lines| == 0 then 0 else lines[0].quantity + QuantitySum(lines[1..])
  }

  /** The lines of one user, oldest first. */
  function UserLines(lines: seq<CartLine>, userId: Id): (r: seq<CartLine>)
    ensures |r| <= |lines|
    ensures forall l :: l in r <==> l in lines && l.userId == userId
  {
    if |lines| == 0 then []
    else
      var tail := UserLines(lines[1..], userId);
      assert forall l :: l in lines <==> l == lines[0] || l in lines[1..];
      if lines[0].userId == userId then [lines[0]] + tail else tail
  }

  function Reverse<T>(s: seq<T>): (r: seq<T>)
    ensures |r| == |s|
    ensures forall k :: 0 <= k < |s| ==> r[k] == s[|s| - 1 - k]
  {
    if |s| == 0 then [] else Reverse(s[1..]) + [s[0]]
  }

  lemma ReverseKeepsElements<T(!new)>(s: seq<T>)
    ensures forall x :: x in Reverse(s) <==> x in s
  {
    var r := Reverse(s);
    forall x | x in s ensures x in r {
      var k :| 0 <= k < |s| && s[k] == x;
      assert r[|s| - 1 - k] == x;
    }
  }

  /** The `resumen` block of `getCarrito`, with the lines it lists. */
  datatype CartSummary = CartSummary(
    items: seq<CartLine>,
    totalItems: nat,
    totalQuantity: int,
    total: int)

  /** `getCarrito`: the caller's lines, newest first, with their count,
      their quantity sum and their value. Reads only. */
  function Summary(lines: seq<CartLine>, userId: Id): (r: CartSummary)
    ensures forall l :: l in r.items <==> l in lines && l.userId == userId
    ensures r.totalItems == |r.items| == |UserLines(lines, userId)|
    ensures forall k :: 0 <= k < |r.items| ==> r.items[k] == UserLines(lines, userId)[|r.items| - 1 - k]
    ensures r.totalQuantity == QuantitySum(UserLines(lines, userId))
    ensures r.total == CartValue(UserLines(lines, userId))
  {
    // backend/controllers/carrito.controller.js:20 opens a `try` that :64
    // closes with neither `catch` nor `finally`, so the module does not
    // parse, and :47-49 adds into an undeclared `total` while
    // `totalCarrito` is a constant 0; the handler that parses, with the sum
    // it evidently intends, is modelled.
    var mine := UserLines(lines, userId);
    var items := Reverse(mine);
    ReverseKeepsElements(mine);
    ReverseKeepsSums(mine);
    CartSummary(items, |items|, QuantitySum(items), CartValue(items))
  }

  lemma {:induction false} SumsOfConcat(a: seq<CartLine>, b: seq<CartLine>)
    ensures CartValue(a + b) == CartValue(a) + CartValue(b)
    ensures QuantitySum(a + b) == QuantitySum(a) + QuantitySum(b)
  {
    if |a| > 0 {
      assert (a + b)[1..] == a[1..] + b;
      SumsOfConcat(a[1..], b);
    } else {
      assert a + b == b;
    }
  }

  /** Listing the lines newest first does not change the totals. */
  lemma {:induction false} ReverseKeepsSums(lines: seq<CartLine>)
    ensures CartValue(Reverse(lines)) == CartValue(lines)
    ensures QuantitySum(Reverse(lines)) == QuantitySum(lines)
  {
    if |lines| > 0 {
      ReverseKeepsSums(lines[1..]);
      SumsOfConcat(Reverse(lines[1..]), [lines[0]]);
      assert Reverse(lines) == Reverse(lines[1..]) + [lines[0]];
    }
  }

  /** With valid lines, the summed quantity is at least the number of lines
      and the value is non-negative. */
  lemma {:induction false} SummaryBounds(lines: seq<CartLine>)
    requires forall i :: 0 <= i < |lines| ==> ValidLine(lines[i])
    ensures QuantitySum(lines) >= |lines|
    ensures CartValue(lines) >= 0
  {
    if |lines| > 0 {
      assert ValidLine(lines[0]);
      SummaryBounds(lines[1..]);
    }
  }
}

=== FILE: catalog.dfy ===
/** The three-level catalog: categories own subcategories, which own
    products. This module holds the records, their field validators, the
    model hooks that run on create (parent checks) and on update
    (downward deactivation), and the counting helpers of the models
    `Categoria`, `Subcategoria` and `Producto`. */
module Catalog {
  import opened Outcomes
  import opened Tables
  import Text

  /** Money as integer cents: `DECIMAL(10,2)` columns hold exact cents. */
  type Cents = int

  /** Largest value of a `DECIMAL(10,2)` column: 99,999,999.99. */
  const MaxCents: Cents := 9_999_999_999

  /** Largest value of a signed 32-bit `INTEGER` column; MySQL in strict
      mode refuses a larger value instead of storing it. */
  const MaxInt: int := 2_147_483_647

  datatype Category = Category(
    id: Id,
    name: string,
    description: Option<string>,
    active: bool)

  datatype Subcategory = Subcategory(
    id: Id,
    name: string,
    description: Option<string>,
    categoryId: Id,
    active: bool)

  datatype Product = Product(
    id: Id,
    name: string,
    description: Option<string>,
    price: Cents,
    stock: int,
    image: Option<string>,
    subcategoryId: Id,
    categoryId: Id,
    active: bool)

  /** The three catalog tables. */
  datatype Hierarchy = Hierarchy(
    categories: seq<Category>,
    subcategories: seq<Subcategory>,
    products: seq<Product>)

  function CategoryKey(c: Category): Id { c.id }
  function SubcategoryKey(s: Subcategory): Id { s.id }
  function ProductKey(p: Product): Id { p.id }

  // ---------------------------------------------------------------------
  // Field validators
  // ---------------------------------------------------------------------

  /** `notEmpty` and `len: [2, 100]` on `Categoria.nombre`. `len` measures
      with `isLength` of validator.js, as `Text.Length` does. */
  predicate ValidCategoryName(n: string) {
    Text.NotBlank(n) && 2 <= Text.Length(n) <= 100
  }

  /** `notEmpty` and `len: [2, 100]` on `Subcategoria.nombre`, measured
      as for a category. */
  predicate ValidSubcategoryName(n: string) {
    Text.NotBlank(n) && 2 <= Text.Length(n) <= 100
  }

  /** `notEmpty` and `len: [3, 200]` on `Producto.nombre`, measured as for
      a category. */
  predicate ValidProductName(n: string) {
    Text.NotBlank(n) && 3 <= Text.Length(n) <= 200
  }

  /** `min: 0` on a price, within the range of `DECIMAL(10,2)`. */
  predicate ValidPrice(p: Cents) {
    0 <= p <= MaxCents
  }

  /** `isInt` and `min: 0` on `Producto.stock`, within the range of its
      `INTEGER` column. */
  predicate ValidStock(s: int) {
    0 <= s <= MaxInt
  }

  /** The pattern `/\.(jpg|jpeg|png|gif)$/i` on `Producto.imagen`. */
  predicate ValidImageName(n: string) {
    || Text.EndsWithIgnoringCase(n, ".jpg")
    || Text.EndsWithIgnoringCase(n, ".jpeg")
    || Text.EndsWithIgnoringCase(n, ".png")
    || Text.EndsWithIgnoringCase(n, ".gif")
  }

  /** The image is optional; validators do not run on `null`. */
  predicate ValidImage(img: Option<string>) {
    img.None? || ValidImageName(img.value)
  }

  /** Every product field whose validator fails. */
  function ProductFieldErrors(name: string, price: Cents, stock: int, image: Option<string>): (r: set<Field>)
    ensures r <= {Name, Price, Stock, Image}
    ensures r == {} <==> ValidProductName(name) && ValidPrice(price) && ValidStock(stock) && ValidImage(image)
    ensures Name in r <==> !ValidProductName(name)
    ensures Price in r <==> !ValidPrice(price)
    ensures Stock in r <==> !ValidStock(stock)
    ensures Image in r <==> !ValidImage(image)
  {
    (if ValidProductName(name) then {} else {Name})
    + (if ValidPrice(price) then {} else {Price})
    + (if ValidStock(stock) then {} else {Stock})
    + (if ValidImage(image) then {} else {Image})
  }

  predicate ValidProduct(p: Product) {
    ValidProductName(p.name) && ValidPrice(p.price) && ValidStock(p.stock) && ValidImage(p.image)
  }

  /** The database-level guarantees on the catalog tables: unique keys,
      valid fields, unique category names, unique subcategory name per
      category. */
  predicate Valid(h: Hierarchy) {
    && UniqueKeys(h.categories, CategoryKey)
    && UniqueKeys(h.subcategories, SubcategoryKey)
    && UniqueKeys(h.products, ProductKey)
    && (forall i :: 0 <= i < |h.categories| ==> ValidCategoryName(h.categories[i].name))
    && (forall i :: 0 <= i < |h.subcategories| ==> ValidSubcategoryName(h.subcategories[i].name))
    && (forall i :: 0 <= i < |h.products| ==> ValidProduct(h.products[i]))
    && (forall i, j :: 0 <= i < j < |h.categories| ==> h.categories[i].name != h.categories[j].name)
    && (forall i, j :: 0 <= i < j < |h.subcategories| ==>
          h.subcategories[i].name != h.subcategories[j].name
          || h.subcategories[i].categoryId != h.subcategories[j].categoryId)
  }

  // ---------------------------------------------------------------------
  // Lookup by primary key
  // ---------------------------------------------------------------------

  function FindCategory(h: Hierarchy, id: Id): (r: Option<Category>)
    ensures r.Some? ==> r.value in h.categories && r.value.id == id
    ensures r.None? <==> forall i :: 0 <= i < |h.categories| ==> h.categories[i].id != id
  {
    match IndexOf(h.categories, CategoryKey, id)
    case None => None
    case Some(i) => Some(h.categories[i])
  }

  function FindSubcategory(h: Hierarchy, id: Id): (r: Option<Subcategory>)
    ensures r.Some? ==> r.value in h.subcategories && r.value.id == id
    ensures r.None? <==> forall i :: 0 <= i < |h.subcategories| ==> h.subcategories[i].id != id
  {
    match IndexOf(h.subcategories, SubcategoryKey, id)
    case None => None
    case Some(i) => Some(h.subcategories[i])
  }

  function FindProduct(h: Hierarchy, id: Id): (r: Option<Product>)
    ensures r.Some? ==> r.value in h.products && r.value.id == id
    ensures r.None? <==> forall i :: 0 <= i < |h.products| ==> h.products[i].id != id
  {
    match IndexOf(h.products, ProductKey, id)
    case None => None
    case Some(i) => Some(h.products[i])
  }

  predicate CategoryNameTaken(cats: seq<Category>, name: string) {
    exists i :: 0 <= i < |cats| && cats[i].name == name
  }

  predicate SubcategoryNameTaken(subs: seq<Subcategory>, name: string, cid: Id) {
    exists i :: 0 <= i < |subs| && subs[i].name == name && subs[i].categoryId == cid
  }

  // ---------------------------------------------------------------------
  // Create (validators, then the beforeCreate hook, then the insert)
  // ---------------------------------------------------------------------

  /** `Categoria.create`: the name validators, then the unique name
      constraint; `activo` defaults to true. */
  function CreateCategory(h: Hierarchy, name: string, description: Option<string>, active: Option<bool>): (r: Result<Hierarchy>)
    ensures r.Ok? <==> ValidCategoryName(name) && !CategoryNameTaken(h.categories, name)
    ensures !ValidCategoryName(name) ==> r == Err(Invalid({Name}))
    ensures ValidCategoryName(name) && CategoryNameTaken(h.categories, name) ==> r == Err(Duplicate)
    ensures r.Ok? ==>
      && r.value.subcategories == h.subcategories
      && r.value.products == h.products
      && |r.value.categories| == |h.categories| + 1
      && r.value.categories[..|h.categories|] == h.categories
      && var c := r.value.categories[|h.categories|];
         && FindCategory(h, c.id).None?
         && c.name == name && c.description == description
         && c.active == (active.None? || active.value)
  {
    if !ValidCategoryName(name) then Err(Invalid({Name}))
    else if CategoryNameTaken(h.categories, name) then Err(Duplicate)
    else
      var c := Category(FreshKey(h.categories, CategoryKey), name, description,
                        if active.Some? then active.value else true);
      Ok(h.(categories := h.categories + [c]))
  }

  /** `Subcategoria.create`: the name validators, then the `beforeCreate`
      hook (the parent must exist and be active), then the unique index
      on (nombre, categoriaId). */
  function CreateSubcategory(h: Hierarchy, name: string, description: Option<string>, categoryId: Id, active: Option<bool>): (r: Result<Hierarchy>)
    ensures r.Ok? <==>
      && ValidSubcategoryName(name)
      && FindCategory(h, categoryId).Some? && FindCategory(h, categoryId).value.active
      && !SubcategoryNameTaken(h.subcategories, name, categoryId)
    ensures !ValidSubcategoryName(name) ==> r == Err(Invalid({Name}))
    ensures ValidSubcategoryName(name) && FindCategory(h, categoryId).None? ==> r == Err(NotFound)
    ensures ValidSubcategoryName(name) && FindCategory(h, categoryId).Some? && !FindCategory(h, categoryId).value.active
            ==> r == Err(ParentInactive)
    ensures r.Ok? ==>
      && r.value.categories == h.categories
      && r.value.products == h.products
      && |r.value.subcategories| == |h.subcategories| + 1
      && r.value.subcategories[..|h.subcategories|] == h.subcategories
      && var s := r.value.subcategories[|h.subcategories|];
         && FindSubcategory(h, s.id).None?
         && s.name == name && s.description == description && s.categoryId == categoryId
         && s.active == (active.None? || active.value)
  {
    if !ValidSubcategoryName(name) then Err(Invalid({Name}))
    else
      match FindCategory(h, categoryId)
      case None => Err(NotFound)
      case Some(c) =>
        if !c.active then Err(ParentInactive)
        // The column-level `unique` at backend/models/subcategoria.js:32
        // would forbid the same name under two categories; the composite
        // index at :99-104 and its comment allow it, and that is modelled.
        else if SubcategoryNameTaken(h.subcategories, name, categoryId) then Err(Duplicate)
        else
          var s := Subcategory(FreshKey(h.subcategories, SubcategoryKey), name, description, categoryId,
                               if active.Some? then active.value else true);
          Ok(h.(subcategories := h.subcategories + [s]))
  }

  /** The fields a caller supplies to `Producto.create`. */
  datatype ProductDraft = ProductDraft(
    name: string,
    description: Option<string>,
    price: Cents,
    stock: Option<int>,
    image: Option<string>,
    subcategoryId: Id,
    categoryId: Id,
    active: Option<bool>)

  /** `stock` defaults to 0. */
  function DraftStock(d: ProductDraft): int {
    if d.stock.Some? then d.stock.value else 0
  }

  /** The checks of the `beforeCreate` hook of `Producto`, in order. */
  function ParentCheck(h: Hierarchy, subcategoryId: Id, categoryId: Id): (r: Option<Error>)
    ensures r.None? <==>
      && FindSubcategory(h, subcategoryId).Some? && FindSubcategory(h, subcategoryId).value.active
      && FindCategory(h, categoryId).Some? && FindCategory(h, categoryId).value.active
      && FindSubcategory(h, subcategoryId).value.categoryId == categoryId
    ensures r.Some? ==> r.value in {NotFound, ParentInactive, HierarchyMismatch}
    ensures FindSubcategory(h, subcategoryId).None? ==> r == Some(NotFound)
  {
    // backend/models/Producto.js:193-196 declares `subcategoria` twice; the
    // lookup of the parent subcategory it evidently intends is modelled.
    match FindSubcategory(h, subcategoryId)
    case None => Some(NotFound)
    case Some(s) =>
      if !s.active then Some(ParentInactive)
      else
        match FindCategory(h, categoryId)
        case None => Some(NotFound)
        case Some(c) =>
          if !c.active then Some(ParentInactive)
          else if s.categoryId != categoryId then Some(HierarchyMismatch)
          else None
  }

  /** `Producto.create`: the field validators, then the `beforeCreate`
      hook, then the insert. */
  function CreateProduct(h: Hierarchy, d: ProductDraft): (r: Result<Hierarchy>)
    ensures r.Ok? <==>
      ProductFieldErrors(d.name, d.price, DraftStock(d), d.image) == {}
      && ParentCheck(h, d.subcategoryId, d.categoryId).None?
    ensures ProductFieldErrors(d.name, d.price, DraftStock(d), d.image) != {} ==>
      r == Err(Invalid(ProductFieldErrors(d.name, d.price, DraftStock(d), d.image)))
    ensures r.Ok? ==>
      && r.value.categories == h.categories
      && r.value.subcategories == h.subcategories
      && |r.value.products| == |h.products| + 1
      && r.value.products[..|h.products|] == h.products
      && var p := r.value.products[|h.products|];
         && FindProduct(h, p.id).None?
         && ValidProduct(p)
         && p.name == d.name && p.description == d.description && p.price == d.price
         && p.stock == DraftStock(d) && p.image == d.image
         && p.subcategoryId == d.subcategoryId && p.categoryId == d.categoryId
         && p.active == (d.active.None? || d.active.value)
  {
    var errs := ProductFieldErrors(d.name, d.price, DraftStock(d), d.image);
    if errs != {} then Err(Invalid(errs))
    else
      match ParentCheck(h, d.subcategoryId, d.categoryId)
      case Some(e) => Err(e)
      case None =>
        var p := Product(FreshKey(h.products, ProductKey), d.name, d.description, d.price, DraftStock(d),
                         d.image, d.subcategoryId, d.categoryId, if d.active.Some? then d.active.value else true);
        Ok(h.(products := h.products + [p]))
  }

  // ---------------------------------------------------------------------
  // Deactivation cascades (afterUpdate hooks)
  // ---------------------------------------------------------------------

  /** The `afterUpdate` hook of `Subcategoria` when `activo` went from true
      to false: every product of the subcategory is deactivated. */
  function DeactivateUnderSubcategory(h: Hierarchy, sid: Id): (r: Hierarchy)
    ensures r.categories == h.categories && r.subcategories == h.subcategories
    ensures |r.products| == |h.products|
    ensures forall i :: 0 <= i < |r.products| && r.products[i].subcategoryId == sid ==> !r.products[i].active
    ensures forall i :: 0 <= i < |h.products| ==> r.products[i] == h.products[i].(active := r.products[i].active)
    ensures forall i :: 0 <= i < |h.products| && h.products[i].subcategoryId != sid ==> r.products[i] == h.products[i]
  {
    var ps := h.products;
    h.(products := seq(|ps|, i requires 0 <= i < |ps| =>
         if ps[i].subcategoryId == sid then ps[i].(active := false) else ps[i]))
  }

  /** Ids of the subcategories of `cid` that are still active: deactivating
      them fires their own `afterUpdate` hook. */
  function OpenSubcategoriesOf(subs: seq<Subcategory>, cid: Id): set<Id> {
    set i | 0 <= i < |subs| && subs[i].categoryId == cid && subs[i].active :: subs[i].id
  }

  /** The `afterUpdate` hook of `Categoria` when `activo` went from true to
      false: every subcategory of the category is deactivated (which fires
      the subcategory hook for each one that was active), then every
      product of the category. */
  function DeactivateUnderCategory(h: Hierarchy, cid: Id): (r: Hierarchy)
    ensures r.categories == h.categories
    ensures |r.subcategories| == |h.subcategories| && |r.products| == |h.products|
    ensures forall i :: 0 <= i < |r.subcategories| && r.subcategories[i].categoryId == cid ==> !r.subcategories[i].active
    ensures forall i :: 0 <= i < |r.products| && r.products[i].categoryId == cid ==> !r.products[i].active
    ensures forall i :: 0 <= i < |h.products| && h.products[i].subcategoryId in OpenSubcategoriesOf(h.subcategories, cid) ==>
      !r.products[i].active
    ensures forall i :: 0 <= i < |h.subcategories| ==>
      r.subcategories[i] == h.subcategories[i].(active := r.subcategories[i].active)
    ensures forall i :: 0 <= i < |h.products| ==> r.products[i] == h.products[i].(active := r.products[i].active)
    ensures forall i :: 0 <= i < |h.subcategories| && h.subcategories[i].categoryId != cid ==>
      r.subcategories[i] == h.subcategories[i]
    ensures forall i ::
      (0 <= i < |h.products| && h.products[i].categoryId != cid
       && h.products[i].subcategoryId !in OpenSubcategoriesOf(h.subcategories, cid))
      ==> r.products[i] == h.products[i]
    ensures forall i :: 0 <= i < |h.products| && r.products[i].active ==> h.products[i].active
  {
    // backend/models/Categoria.js:78 tests `changed('Activo')`, which never
    // holds for the attribute `activo`, and :82 requires './Subcategorias',
    // a module that does not exist; the caller applies this hook on the
    // change of `activo` that the comment at :73-74 describes, over the
    // subcategories of `subcategoria.js`.
    var subs := h.subcategories;
    var ps := h.products;
    var closing := OpenSubcategoriesOf(subs, cid);
    Hierarchy(
      h.categories,
      seq(|subs|, i requires 0 <= i < |subs| =>
        if subs[i].categoryId == cid then subs[i].(active := false) else subs[i]),
      seq(|ps|, i requires 0 <= i < |ps| =>
        if ps[i].categoryId == cid || ps[i].subcategoryId in closing then ps[i].(active := false) else ps[i]))
  }

  // ---------------------------------------------------------------------
  // Save an updated row (validators of changed fields, unique constraints,
  // then the afterUpdate hook)
  // ---------------------------------------------------------------------

  /** `categoria.save()` of a row whose primary key is `c.id`. */
  function SaveCategory(h: Hierarchy, c: Category): (r: Result<Hierarchy>)
    ensures FindCategory(h, c.id).None? ==> r == Err(NotFound)
    ensures FindCategory(h, c.id).Some? ==>
      var prev := FindCategory(h, c.id).value;
      && (r.Ok? <==> c.name == prev.name || (ValidCategoryName(c.name) && !CategoryNameTaken(h.categories, c.name)))
      && (r.Ok? ==>
          && |r.value.categories| == |h.categories|
          && FindCategory(r.value, c.id) == Some(c)
          && (forall j :: 0 <= j < |h.categories| && h.categories[j].id != c.id ==>
                r.value.categories[j] == h.categories[j])
          && (prev.active && !c.active ==>
                r.value.subcategories == DeactivateUnderCategory(h, c.id).subcategories
                && r.value.products == DeactivateUnderCategory(h, c.id).products)
          && (!(prev.active && !c.active) ==> r.value.subcategories == h.subcategories && r.value.products == h.products))
  {
    match IndexOf(h.categories, CategoryKey, c.id)
    case None => Err(NotFound)
    case Some(i) =>
      var prev := h.categories[i];
      if c.name != prev.name && !ValidCategoryName(c.name) then Err(Invalid({Name}))
      else if c.name != prev.name && CategoryNameTaken(h.categories, c.name) then Err(Duplicate)
      else
        var h1 := h.(categories := h.categories[i := c]);
        assert IndexOf(h1.categories, CategoryKey, c.id) == Some(i) by {
          IndexOfAfterReplace(h.categories, CategoryKey, i, c);
        }
        // The cascade of backend/models/Categoria.js:78-111 as intended:
        // see DeactivateUnderCategory for the two defects on its path.
        if prev.active && !c.active then Ok(DeactivateUnderCategory(h1, c.id)) else Ok(h1)
  }

  /** `subcategoria.save()` of a row whose primary key is `s.id`: the
      validator of a changed name, the foreign key when the category
      changed (MySQL checks a foreign key only on a changed column), the
      unique (name, category) index, then the `afterUpdate` hook. */
  function SaveSubcategory(h: Hierarchy, s: Subcategory): (r: Result<Hierarchy>)
    ensures FindSubcategory(h, s.id).None? ==> r == Err(NotFound)
    ensures FindSubcategory(h, s.id).Some? ==>
      var prev := FindSubcategory(h, s.id).value;
      var renamed := s.name != prev.name || s.categoryId != prev.categoryId;
      && (r.Ok? <==>
            && (s.name == prev.name || ValidSubcategoryName(s.name))
            && (s.categoryId == prev.categoryId || FindCategory(h, s.categoryId).Some?)
            && (!renamed || !SubcategoryNameTaken(h.subcategories, s.name, s.categoryId)))
      && ((s.name == prev.name || ValidSubcategoryName(s.name)) && s.categoryId != prev.categoryId
            && FindCategory(h, s.categoryId).None?
          ==> r == Err(MissingReference))
      && (r.Ok? ==>
          && r.value.categories == h.categories
          && |r.value.subcategories| == |h.subcategories|
          && FindSubcategory(r.value, s.id) == Some(s)
          && (forall j :: 0 <= j < |h.subcategories| && h.subcategories[j].id != s.id ==>
                r.value.subcategories[j] == h.subcategories[j])
          && (prev.active && !s.active ==> r.value.products == DeactivateUnderSubcategory(h, s.id).products)
          && (!(prev.active && !s.active) ==> r.value.products == h.products))
  {
    match IndexOf(h.subcategories, SubcategoryKey, s.id)
    case None => Err(NotFound)
    case Some(i) =>
      var prev := h.subcategories[i];
      var renamed := s.name != prev.name || s.categoryId != prev.categoryId;
      if s.name != prev.name && !ValidSubcategoryName(s.name) then Err(Invalid({Name}))
      else if s.categoryId != prev.categoryId && FindCategory(h, s.categoryId).None? then Err(MissingReference)
      else if renamed && SubcategoryNameTaken(h.subcategories, s.name, s.categoryId) then Err(Duplicate)
      else
        var h1 := h.(subcategories := h.subcategories[i := s]);
        assert IndexOf(h1.subcategories, SubcategoryKey, s.id) == Some(i) by {
          IndexOfAfterReplace(h.subcategories, SubcategoryKey, i, s);
        }
        if prev.active && !s.active then Ok(DeactivateUnderSubcategory(h1, s.id)) else Ok(h1)
  }

  /** The product fields of `p` that changed from `prev` and whose
      validator fails: `save()` validates changed fields only. */
  function ChangedProductErrors(prev: Product, p: Product): (r: set<Field>)
    ensures r <= ProductFieldErrors(p.name, p.price, p.stock, p.image)
    ensures ValidProduct(prev) ==> r == ProductFieldErrors(p.name, p.price, p.stock, p.image)
  {
    (if p.name != prev.name && !ValidProductName(p.name) then {Name} else {})
    + (if p.price != prev.price && !ValidPrice(p.price) then {Price} else {})
    + (if p.stock != prev.stock && !ValidStock(p.stock) then {Stock} else {})
    + (if p.image != prev.image && !ValidImage(p.image) then {Image} else {})
  }

  /** `producto.save()` of a row whose primary key is `p.id`: the validators
      of the changed fields and the foreign keys of the changed columns;
      `Producto` has no update hook. */
  function SaveProduct(h: Hierarchy, p: Product): (r: Result<Hierarchy>)
    ensures FindProduct(h, p.id).None? ==> r == Err(NotFound)
    ensures FindProduct(h, p.id).Some? ==>
      var prev := FindProduct(h, p.id).value;
      && (ChangedProductErrors(prev, p) != {} ==> r == Err(Invalid(ChangedProductErrors(prev, p))))
      && (r.Ok? <==>
            && ChangedProductErrors(prev, p) == {}
            && (p.categoryId == prev.categoryId || FindCategory(h, p.categoryId).Some?)
            && (p.subcategoryId == prev.subcategoryId || FindSubcategory(h, p.subcategoryId).Some?))
    ensures r.Ok? ==>
      && r.value.categories == h.categories
      && r.value.subcategories == h.subcategories
      && |r.value.products| == |h.products|
      && FindProduct(r.value, p.id) == Some(p)
      && (forall j :: 0 <= j < |h.products| && h.products[j].id != p.id ==> r.value.products[j] == h.products[j])
  {
    match IndexOf(h.products, ProductKey, p.id)
    case None => Err(NotFound)
    case Some(i) =>
      var prev := h.products[i];
      var errs := ChangedProductErrors(prev, p);
      if errs != {} then Err(Invalid(errs))
      else if p.categoryId != prev.categoryId && FindCategory(h, p.categoryId).None? then Err(MissingReference)
      else if p.subcategoryId != prev.subcategoryId && FindSubcategory(h, p.subcategoryId).None? then Err(MissingReference)
      else
        assert IndexOf(h.products[i := p], ProductKey, p.id) == Some(i) by {
          IndexOfAfterReplace(h.products, ProductKey, i, p);
        }
        Ok(h.(products := h.products[i := p]))
  }

  // ---------------------------------------------------------------------
  // Counting (contarSubcategorias, contarProductos, statistics)
  // ---------------------------------------------------------------------

  /** Number of subcategories whose `categoriaId` is `cid`. */
  function CountSubcategories(subs: seq<Subcategory>, cid: Id): (n: nat)
    ensures n <= |subs|
    ensures n == 0 <==> forall i :: 0 <= i < |subs| ==> subs[i].categoryId != cid
  {
    // backend/models/Categoria.js:127 requires './Subcategorias', a module
    // that does not exist; the count over `subcategoria.js` is modelled.
    if |subs| == 0 then 0
    else
      assert forall i :: 1 <= i < |subs| ==> subs[i] == subs[1..][i - 1];
      (if subs[0].categoryId == cid then 1 else 0) + CountSubcategories(subs[1..], cid)
  }

  /** Number of subcategories of `cid` that are active. */
  function CountActiveSubcategories(subs: seq<Subcategory>, cid: Id): (n: nat)
    ensures n <= CountSubcategories(subs, cid)
  {
    if |subs| == 0 then 0
    else (if subs[0].categoryId == cid && subs[0].active then 1 else 0) + CountActiveSubcategories(subs[1..], cid)
  }

  /** Number of subcategories of `cid` that are inactive. */
  function CountInactiveSubcategories(subs: seq<Subcategory>, cid: Id): nat {
    if |subs| == 0 then 0
    else (if subs[0].categoryId == cid && !subs[0].active then 1 else 0) + CountInactiveSubcategories(subs[1..], cid)
  }

  /** Number of products whose `categoriaId` is `cid`. */
  function CountProductsOfCategory(ps: seq<Product>, cid: Id): (n: nat)
    ensures n <= |ps|
    ensures n == 0 <==> forall i :: 0 <= i < |ps| ==> ps[i].categoryId != cid
  {
    if |ps| == 0 then 0
    else
      assert forall i :: 1 <= i < |ps| ==> ps[i] == ps[1..][i - 1];
      (if ps[0].categoryId == cid then 1 else 0) + CountProductsOfCategory(ps[1..], cid)
  }

  function CountActiveProductsOfCategory(ps: seq<Product>, cid: Id): (n: nat)
    ensures n <= CountProductsOfCategory(ps, cid)
  {
    if |ps| == 0 then 0
    else (if ps[0].categoryId == cid && ps[0].active then 1 else 0) + CountActiveProductsOfCategory(ps[1..], cid)
  }

  function CountInactiveProductsOfCategory(ps: seq<Product>, cid: Id): nat {
    if |ps| == 0 then 0
    else (if ps[0].categoryId == cid && !ps[0].active then 1 else 0) + CountInactiveProductsOfCategory(ps[1..], cid)
  }

  /** Number of products whose `subcategoriaId` is `sid`. */
  function CountProductsOfSubcategory(ps: seq<Product>, sid: Id): (n: nat)
    ensures n <= |ps|
    ensures n == 0 <==> forall i :: 0 <= i < |ps| ==> ps[i].subcategoryId != sid
  {
    if |ps| == 0 then 0
    else
      assert forall i :: 1 <= i < |ps| ==> ps[i] == ps[1..][i - 1];
      (if ps[0].subcategoryId == sid then 1 else 0) + CountProductsOfSubcategory(ps[1..], sid)
  }

  /** Sum of the stock of the products of `cid`. */
  function StockTotal(ps: seq<Product>, cid: Id): int {
    if |ps| == 0 then 0
    else (if ps[0].categoryId == cid then ps[0].stock else 0) + StockTotal(ps[1..], cid)
  }

  /** Sum of price times stock over the products of `cid`, in cents. */
  function InventoryValue(ps: seq<Product>, cid: Id): int {
    if |ps| == 0 then 0
    else (if ps[0].categoryId == cid then ps[0].price * ps[0].stock else 0) + InventoryValue(ps[1..], cid)
  }

  /** Inactive subcategories are exactly the ones that are not active. */
  lemma {:induction false} InactiveSubcategoriesAreTheRest(subs: seq<Subcategory>, cid: Id)
    ensures CountInactiveSubcategories(subs, cid) == CountSubcategories(subs, cid) - CountActiveSubcategories(subs, cid)
  {
    if |subs| > 0 {
      InactiveSubcategoriesAreTheRest(subs[1..], cid);
    }
  }

  /** Inactive products are exactly the ones that are not active. */
  lemma {:induction false} InactiveProductsAreTheRest(ps: seq<Product>, cid: Id)
    ensures CountInactiveProductsOfCategory(ps, cid) == CountProductsOfCategory(ps, cid) - CountActiveProductsOfCategory(ps, cid)
  {
    if |ps| > 0 {
      InactiveProductsAreTheRest(ps[1..], cid);
    }
  }

  /** With every stock non-negative, the stock total is non-negative and at
      least the stock of each product of the category. */
  lemma {:induction false} StockTotalBounds(ps: seq<Product>, cid: Id)
    requires forall i :: 0 <= i < |ps| ==> ps[i].stock >= 0
    ensures StockTotal(ps, cid) >= 0
    ensures forall i :: 0 <= i < |ps| && ps[i].categoryId == cid ==> ps[i].stock <= StockTotal(ps, cid)
  {
    if |ps| > 0 {
      StockTotalBounds(ps[1..], cid);
      forall i | 1 <= i < |ps| && ps[i].categoryId == cid
        ensures ps[i].stock <= StockTotal(ps, cid)
      {
        assert ps[i] == ps[1..][i - 1];
      }
    }
  }

  // ---------------------------------------------------------------------
  // The operations keep the table guarantees
  // ---------------------------------------------------------------------

  /** A created category keeps keys and names unique and fields valid. */
  lemma CreateCategoryKeepsValid(h: Hierarchy, name: string, description: Option<string>, active: Option<bool>)
    requires Valid(h)
    ensures CreateCategory(h, name, description, active).Ok? ==> Valid(CreateCategory(h, name, description, active).value)
  {
    var r := CreateCategory(h, name, description, active);
    if r.Ok? {
      var cs := r.value.categories;
      var c := cs[|h.categories|];
      assert cs == h.categories + [c];
      AppendKeepsUnique(h.categories, CategoryKey, c);
      forall i, j | 0 <= i < j < |cs|
        ensures cs[i].name != cs[j].name
      {
        assert cs[i] == h.categories[i];
        if j < |h.categories| {
          assert cs[j] == h.categories[j];
        }
      }
    }
  }

  /** A created subcategory keeps keys and (name, category) pairs unique. */
  lemma CreateSubcategoryKeepsValid(h: Hierarchy, name: string, description: Option<string>, categoryId: Id, active: Option<bool>)
    requires Valid(h)
    ensures CreateSubcategory(h, name, description, categoryId, active).Ok? ==>
      Valid(CreateSubcategory(h, name, description, categoryId, active).value)
  {
    var r := CreateSubcategory(h, name, description, categoryId, active);
    if r.Ok? {
      var ss := r.value.subcategories;
      var s := ss[|h.subcategories|];
      assert ss == h.subcategories + [s];
      AppendKeepsUnique(h.subcategories, SubcategoryKey, s);
      forall i, j | 0 <= i < j < |ss|
        ensures ss[i].name != ss[j].name || ss[i].categoryId != ss[j].categoryId
      {
        assert ss[i] == h.subcategories[i];
        if j < |h.subcategories| {
          assert ss[j] == h.subcategories[j];
        }
      }
    }
  }

  /** A created product keeps keys unique and every product valid. */
  lemma CreateProductKeepsValid(h: Hierarchy, d: ProductDraft)
    requires Valid(h)
    ensures CreateProduct(h, d).Ok? ==> Valid(CreateProduct(h, d).value)
  {
    var r := CreateProduct(h, d);
    if r.Ok? {
      var ps := r.value.products;
      assert ps == h.products + [ps[|h.products|]];
      AppendKeepsUnique(h.products, ProductKey, ps[|h.products|]);
      assert forall i :: 0 <= i < |h.products| ==> ps[i] == h.products[i];
    }
  }

  /** Deactivating only clears `activo` flags, so the guarantees hold. */
  lemma DeactivateUnderSubcategoryKeepsValid(h: Hierarchy, sid: Id)
    requires Valid(h)
    ensures Valid(DeactivateUnderSubcategory(h, sid))
  {
    var r := DeactivateUnderSubcategory(h, sid);
    forall i, j | 0 <= i < j < |r.products|
      ensures ProductKey(r.products[i]) != ProductKey(r.products[j])
    {
      assert r.products[i].id == h.products[i].id && r.products[j].id == h.products[j].id;
    }
    forall i | 0 <= i < |r.products|
      ensures ValidProduct(r.products[i])
    {
      assert ValidProduct(h.products[i]);
    }
  }

  lemma DeactivateUnderCategoryKeepsValid(h: Hierarchy, cid: Id)
    requires Valid(h)
    ensures Valid(DeactivateUnderCategory(h, cid))
  {
    var r := DeactivateUnderCategory(h, cid);
    forall i, j | 0 <= i < j < |r.subcategories|
      ensures SubcategoryKey(r.subcategories[i]) != SubcategoryKey(r.subcategories[j])
      ensures r.subcategories[i].name != r.subcategories[j].name
              || r.subcategories[i].categoryId != r.subcategories[j].categoryId
    {
      assert r.subcategories[i].id == h.subcategories[i].id && r.subcategories[j].id == h.subcategories[j].id;
    }
    forall i | 0 <= i < |r.subcategories|
      ensures ValidSubcategoryName(r.subcategories[i].name)
    {
      assert r.subcategories[i].name == h.subcategories[i].name;
    }
    forall i, j | 0 <= i < j < |r.products|
      ensures ProductKey(r.products[i]) != ProductKey(r.products[j])
    {
      assert r.products[i].id == h.products[i].id && r.products[j].id == h.products[j].id;
    }
    forall i | 0 <= i < |r.products|
      ensures ValidProduct(r.products[i])
    {
      assert ValidProduct(h.products[i]);
    }
  }

  /** Saving a category (and the cascade it may fire) keeps the guarantees. */
  lemma SaveCategoryKeepsValid(h: Hierarchy, c: Category)
    requires Valid(h)
    ensures SaveCategory(h, c).Ok? ==> Valid(SaveCategory(h, c).value)
  {
    if SaveCategory(h, c).Ok? {
      var i := IndexOf(h.categories, CategoryKey, c.id).value;
      var prev := h.categories[i];
      var cs := h.categories[i := c];
      var h1 := h.(categories := cs);
      forall a, b | 0 <= a < b < |cs|
        ensures CategoryKey(cs[a]) != CategoryKey(cs[b])
        ensures cs[a].name != cs[b].name
      {
        if a == i {
          assert cs[b] == h.categories[b];
        } else if b == i {
          assert cs[a] == h.categories[a];
        }
      }
      assert forall a :: 0 <= a < |cs| ==> ValidCategoryName(cs[a].name);
      assert Valid(h1);
      if prev.active && !c.active {
        DeactivateUnderCategoryKeepsValid(h1, c.id);
        assert SaveCategory(h, c) == Ok(DeactivateUnderCategory(h1, c.id));
      } else {
        assert SaveCategory(h, c) == Ok(h1);
      }
    }
  }

  /** Saving a subcategory (and the cascade it may fire) keeps the
      guarantees: a changed name is valid and a changed (name, category)
      pair is free. */
  lemma SaveSubcategoryKeepsValid(h: Hierarchy, s: Subcategory)
    requires Valid(h)
    ensures SaveSubcategory(h, s).Ok? ==> Valid(SaveSubcategory(h, s).value)
  {
    if SaveSubcategory(h, s).Ok? {
      var i := IndexOf(h.subcategories, SubcategoryKey, s.id).value;
      var prev := h.subcategories[i];
      var ss := h.subcategories[i := s];
      var h1 := h.(subcategories := ss);
      forall a, b | 0 <= a < b < |ss|
        ensures SubcategoryKey(ss[a]) != SubcategoryKey(ss[b])
        ensures ss[a].name != ss[b].name || ss[a].categoryId != ss[b].categoryId
      {
        if a == i {
          assert ss[b] == h.subcategories[b];
        } else if b == i {
          assert ss[a] == h.subcategories[a];
        }
      }
      assert forall a :: 0 <= a < |ss| ==> ValidSubcategoryName(ss[a].name);
      assert Valid(h1);
      if prev.active && !s.active {
        DeactivateUnderSubcategoryKeepsValid(h1, s.id);
        assert SaveSubcategory(h, s) == Ok(DeactivateUnderSubcategory(h1, s.id));
      } else {
        assert SaveSubcategory(h, s) == Ok(h1);
      }
    }
  }

  /** Saving a product keeps keys unique and every product valid: unchanged
      fields were valid already and changed ones passed their validators. */
  lemma SaveProductKeepsValid(h: Hierarchy, p: Product)
    requires Valid(h)
    ensures SaveProduct(h, p).Ok? ==> Valid(SaveProduct(h, p).value)
  {
    if SaveProduct(h, p).Ok? {
      var i := IndexOf(h.products, ProductKey, p.id).value;
      var ps := h.products[i := p];
      assert ValidProduct(h.products[i]);
      assert SaveProduct(h, p) == Ok(h.(products := ps));
      forall a, b | 0 <= a < b < |ps|
        ensures ProductKey(ps[a]) != ProductKey(ps[b])
      {
        if a == i {
          assert ps[b] == h.products[b];
        } else if b == i {
          assert ps[a] == h.products[a];
        }
      }
      assert forall a :: 0 <= a < |ps| ==> ValidProduct(ps[a]);
    }
  }
}

=== FILE: db.dfy ===
/** The whole store: the catalog tables, the users known to it, the cart,
    the orders and their lines. Operations here act on rows by primary key
    and enforce the foreign-key rules declared between the models
    (`onDelete: 'CASCADE'` and `onDelete: 'RESTRICT'`). Each operation is
    one atomic transition: on failure the store is unchanged. */
module Db {
  import opened Outcomes
  import opened Tables
  import opened Catalog
  import Inventory
  import Carts
  import Orders

  datatype Store = Store(
    users: set<Id>,
    catalog: Hierarchy,
    cart: seq<Carts.CartLine>,
    orders: seq<Orders.Order>,
    orderLines: seq<Orders.OrderLine>)

  /** Every foreign key names an existing row. */
  predicate ReferencesIntact(st: Store) {
    && (forall s :: s in st.catalog.subcategories ==> HasKey(st.catalog.categories, CategoryKey, s.categoryId))
    && (forall p :: p in st.catalog.products ==>
          HasKey(st.catalog.subcategories, SubcategoryKey, p.subcategoryId)
          && HasKey(st.catalog.categories, CategoryKey, p.categoryId))
    && (forall l :: l in st.cart ==> l.userId in st.users && HasKey(st.catalog.products, ProductKey, l.productId))
    && (forall o :: o in st.orders ==> o.userId in st.users)
    && (forall d :: d in st.orderLines ==>
          HasKey(st.orders, Orders.OrderKey, d.orderId) && HasKey(st.catalog.products, ProductKey, d.productId))
  }

  function FindOrder(st: Store, id: Id): (r: Option<Orders.Order>)
    ensures r.Some? ==> r.value in st.orders && r.value.id == id
    ensures r.None? <==> !HasKey(st.orders, Orders.OrderKey, id)
  {
    match IndexOf(st.orders, Orders.OrderKey, id)
    case None => None
    case Some(i) => Some(st.orders[i])
  }

  // ---------------------------------------------------------------------
  // Stock of a product, by id
  // ---------------------------------------------------------------------

  /** `producto.reducirStock(cantidad)` on the product with id `pid`. */
  function ReserveStock(st: Store, pid: Id, quantity: int): (r: Result<Store>)
    ensures FindProduct(st.catalog, pid).None? ==> r == Err(NotFound)
    ensures FindProduct(st.catalog, pid).Some? ==>
      var p := FindProduct(st.catalog, pid).value;
      r.Ok? <==> Inventory.HasStockAvailable(p, Some(quantity)) && ValidStock(p.stock - quantity)
    ensures r.Ok? ==>
      var p := FindProduct(st.catalog, pid).value;
      && r.value == st.(catalog := r.value.catalog)
      && r.value.catalog == st.catalog.(products := r.value.catalog.products)
      && FindProduct(r.value.catalog, pid) == Some(p.(stock := p.stock - quantity))
      && |r.value.catalog.products| == |st.catalog.products|
      && (forall j :: 0 <= j < |st.catalog.products| && st.catalog.products[j].id != pid ==>
            r.value.catalog.products[j] == st.catalog.products[j])
  {
    var ps := st.catalog.products;
    match IndexOf(ps, ProductKey, pid)
    case None => Err(NotFound)
    case Some(i) =>
      var p :- Inventory.ReduceStock(ps[i], quantity);
      IndexOfAfterReplace(ps, ProductKey, i, p);
      Ok(st.(catalog := st.catalog.(products := ps[i := p])))
  }

  /** `producto.aumentarStock(cantidad)` on the product with id `pid`. */
  function RestockProduct(st: Store, pid: Id, quantity: int): (r: Result<Store>)
    ensures FindProduct(st.catalog, pid).None? ==> r == Err(NotFound)
    ensures FindProduct(st.catalog, pid).Some? ==>
      (r.Ok? <==> ValidStock(FindProduct(st.catalog, pid).value.stock + quantity))
    ensures r.Ok? ==>
      var p := FindProduct(st.catalog, pid).value;
      && r.value == st.(catalog := r.value.catalog)
      && r.value.catalog == st.catalog.(products := r.value.catalog.products)
      && FindProduct(r.value.catalog, pid) == Some(p.(stock := p.stock + quantity))
      && |r.value.catalog.products| == |st.catalog.products|
      && (forall j :: 0 <= j < |st.catalog.products| && st.catalog.products[j].id != pid ==>
            r.value.catalog.products[j] == st.catalog.products[j])
  {
    var ps := st.catalog.products;
    match IndexOf(ps, ProductKey, pid)
    case None => Err(NotFound)
    case Some(i) =>
      var p :- Inventory.IncreaseStock(ps[i], quantity);
      IndexOfAfterReplace(ps, ProductKey, i, p);
      Ok(st.(catalog := st.catalog.(products := ps[i := p])))
  }

  /** Debiting and then crediting the same quantity gives back the store. */
  lemma ReserveThenRestock(st: Store, pid: Id, quantity: int)
    requires FindProduct(st.catalog, pid).Some? ==> ValidStock(FindProduct(st.catalog, pid).value.stock)
    ensures ReserveStock(st, pid, quantity).Ok? ==>
      RestockProduct(ReserveStock(st, pid, quantity).value, pid, quantity) == Ok(st)
  {
    var ps := st.catalog.products;
    var r1 := ReserveStock(st, pid, quantity);
    if r1.Ok? {
      var i := IndexOf(ps, ProductKey, pid).value;
      var p := ps[i].(stock := ps[i].stock - quantity);
      assert r1.value.catalog.products == ps[i := p];
      IndexOfAfterReplace(ps, ProductKey, i, p);
      assert Inventory.IncreaseStock(p, quantity) == Ok(ps[i]);
      assert ps[i := p][i := ps[i]] == ps;
    }
  }

  // ---------------------------------------------------------------------
  // Inserts that check foreign keys
  // ---------------------------------------------------------------------

  /** `Carrito.create`: the validators, then the foreign keys to the user
      and the product, then the unique (user, product) index. The unit
      price is the caller's, and the product's activity and stock are not
      checked: the hook that did so is commented out, in
      `backend/models/Pedido.js:152-177`. As written the
      model file does not load and its pasted `beforeCreate` refuses every
      insert; see `Carts.InsertLine`. */
  function AddCartLine(st: Store, userId: Id, productId: Id, quantity: Option<int>, unitPrice: Cents): (r: Result<Store>)
    ensures var q := if quantity.Some? then quantity.value else Carts.DefaultQuantity;
      && (Carts.LineErrors(q, unitPrice) != {} ==> r == Err(Invalid(Carts.LineErrors(q, unitPrice))))
      && (Carts.LineErrors(q, unitPrice) == {} && (userId !in st.users || !HasKey(st.catalog.products, ProductKey, productId))
          ==> r == Err(MissingReference))
      && (r.Ok? <==>
            Carts.LineErrors(q, unitPrice) == {}
            && userId in st.users && HasKey(st.catalog.products, ProductKey, productId)
            && !Carts.PairTaken(st.cart, userId, productId))
    ensures r.Ok? ==>
      && r.value == st.(cart := r.value.cart)
      && |r.value.cart| == |st.cart| + 1
      && r.value.cart[..|st.cart|] == st.cart
      && r.value.cart[|st.cart|].userId == userId
      && r.value.cart[|st.cart|].productId == productId
  {
    var q := if quantity.Some? then quantity.value else Carts.DefaultQuantity;
    if Carts.LineErrors(q, unitPrice) != {} then Err(Invalid(Carts.LineErrors(q, unitPrice)))
    else if userId !in st.users || !HasKey(st.catalog.products, ProductKey, productId) then Err(MissingReference)
    else
      var lines :- Carts.InsertLine(st.cart, userId, productId, quantity, unitPrice);
      Ok(st.(cart := lines))
  }

  /** `Pedido.create`: the validators, then the foreign key to the user. */
  function CreateOrder(st: Store, userId: Id, total: Cents, address: string, phone: string, notes: Option<string>)
    : (r: Result<Store>)
    ensures Orders.OrderErrors(total, address, phone) != {} ==> r == Err(Invalid(Orders.OrderErrors(total, address, phone)))
    ensures r.Ok? <==> Orders.OrderErrors(total, address, phone) == {} && userId in st.users
    ensures r.Ok? ==>
      && r.value == st.(orders := r.value.orders)
      && |r.value.orders| == |st.orders| + 1
      && r.value.orders[..|st.orders|] == st.orders
      && var o := r.value.orders[|st.orders|];
         && FindOrder(st, o.id).None?
         && o.userId == userId && o.total == total
         && o.status == Orders.Pending && o.paidAt.None?
  {
    var o :- Orders.NewOrder(FreshKey(st.orders, Orders.OrderKey), userId, total, address, phone, notes);
    if userId !in st.users then Err(MissingReference)
    else Ok(st.(orders := st.orders + [o]))
  }

  /** `DetallePedido.crearDesdeCarrito(pedidoId, items)` against the store:
      the lines are built, then the foreign keys to the order and to each
      product are checked. */
  function CreateDetailsFromCart(st: Store, orderId: Id, items: seq<Carts.CartLine>): (r: Result<Store>)
    ensures Orders.LinesFromCart(orderId, items, FreshKey(st.orderLines, Orders.OrderLineKey)).Err? ==> r.Err?
    ensures r.Ok? <==>
      && Orders.LinesFromCart(orderId, items, FreshKey(st.orderLines, Orders.OrderLineKey)).Ok?
      && HasKey(st.orders, Orders.OrderKey, orderId)
      && (forall k :: 0 <= k < |items| ==> HasKey(st.catalog.products, ProductKey, items[k].productId))
    ensures r.Ok? ==>
      && r.value == st.(orderLines := r.value.orderLines)
      && r.value.orderLines == st.orderLines + Orders.LinesFromCart(orderId, items, FreshKey(st.orderLines, Orders.OrderLineKey)).value
  {
    var ds :- Orders.LinesFromCart(orderId, items, FreshKey(st.orderLines, Orders.OrderLineKey));
    if !HasKey(st.orders, Orders.OrderKey, orderId) then Err(MissingReference)
    else if exists k :: 0 <= k < |items| && !HasKey(st.catalog.products, ProductKey, items[k].productId) then Err(MissingReference)
    else Ok(st.(orderLines := st.orderLines + ds))
  }

  /** After copying a cart into an order, `calcularTotalPedido` of that
      order has grown by exactly the value of the cart. */
  lemma CreateDetailsAddsCartValue(st: Store, orderId: Id, items: seq<Carts.CartLine>)
    requires CreateDetailsFromCart(st, orderId, items).Ok?
    ensures Orders.OrderTotal(CreateDetailsFromCart(st, orderId, items).value.orderLines, orderId)
         == Orders.OrderTotal(st.orderLines, orderId) + Carts.CartValue(items)
  {
    var ds := Orders.LinesFromCart(orderId, items, FreshKey(st.orderLines, Orders.OrderLineKey)).value;
    Orders.OrderTotalOfConcat(st.orderLines, ds, orderId);
    Orders.LinesFromCartTotal(orderId, items, FreshKey(st.orderLines, Orders.OrderLineKey));
  }

  // ---------------------------------------------------------------------
  // Order status and cancellation
  // ---------------------------------------------------------------------

  /** `pedido.cambiarEstado(nuevoEstado)` on the order with id `oid`, at
      time `now`. */
  function ChangeOrderStatus(st: Store, oid: Id, name: string, now: Orders.Time): (r: Result<Store>)
    ensures FindOrder(st, oid).None? ==> r == Err(NotFound)
    ensures FindOrder(st, oid).Some? ==>
      && (r.Ok? <==> Orders.ParseStatus(name).Some?)
      && (r.Ok? ==>
            && r.value == st.(orders := r.value.orders)
            && FindOrder(r.value, oid) == Some(Orders.ChangeStatus(FindOrder(st, oid).value, name, now).value)
            && |r.value.orders| == |st.orders|
            && (forall j :: 0 <= j < |st.orders| && st.orders[j].id != oid ==> r.value.orders[j] == st.orders[j]))
  {
    match IndexOf(st.orders, Orders.OrderKey, oid)
    case None => Err(NotFound)
    case Some(i) =>
      var o :- Orders.ChangeStatus(st.orders[i], name, now);
      IndexOfAfterReplace(st.orders, Orders.OrderKey, i, o);
      Ok(st.(orders := st.orders[i := o]))
  }

  /** The lines of order `oid`, in table order. */
  function OrderLinesOf(lines: seq<Orders.OrderLine>, oid: Id): seq<Orders.OrderLine> {
    Filter(lines, OfOrder(oid))
  }

  function OfOrder(oid: Id): Orders.OrderLine -> bool {
    (d: Orders.OrderLine) => d.orderId == oid
  }

  /** Restitution for one order line: the stock of its product is credited
      with the line's quantity; a line whose product is gone is skipped. */
  function RestockLine(ps: seq<Product>, d: Orders.OrderLine): (r: Result<seq<Product>>)
    ensures !HasKey(ps, ProductKey, d.productId) ==> r == Ok(ps)
    ensures r.Err? ==> r.error == Invalid({Stock})
    ensures r.Ok? ==> |r.value| == |ps|
    ensures r.Ok? ==> forall j :: 0 <= j < |ps| ==> r.value[j] == ps[j].(stock := r.value[j].stock)
  {
    match IndexOf(ps, ProductKey, d.productId)
    case None => Ok(ps)
    case Some(i) =>
      var p :- Inventory.IncreaseStock(ps[i], d.quantity);
      Ok(ps[i := p])
  }

  /** With unique product ids, valid stocks and a non-negative quantity
      that keeps the line's product within the `INTEGER` range, restitution
      succeeds and credits exactly the line's product. */
  lemma RestockLineCredits(ps: seq<Product>, d: Orders.OrderLine)
    requires UniqueKeys(ps, ProductKey)
    requires forall j :: 0 <= j < |ps| ==> ValidStock(ps[j].stock)
    requires d.quantity >= 0
    requires forall j :: 0 <= j < |ps| && ps[j].id == d.productId ==> ps[j].stock + d.quantity <= MaxInt
    ensures RestockLine(ps, d).Ok?
    ensures forall j :: 0 <= j < |ps| ==>
      RestockLine(ps, d).value[j].stock == ps[j].stock + (if ps[j].id == d.productId then d.quantity else 0)
  {
    forall j | 0 <= j < |ps| && ps[j].id == d.productId
      ensures IndexOf(ps, ProductKey, d.productId) == Some(j)
    {
      IndexOfIsOnly(ps, ProductKey, d.productId, j);
    }
  }

  /** Restitution for every line, in order; stops at the first failure. */
  function RestockLines(ps: seq<Product>, lines: seq<Orders.OrderLine>): (r: Result<seq<Product>>)
    ensures r.Ok? ==> |r.value| == |ps|
    ensures r.Ok? ==> forall j :: 0 <= j < |ps| ==> r.value[j] == ps[j].(stock := r.value[j].stock)
    decreases |lines|
  {
    if |lines| == 0 then Ok(ps)
    else
      var ps1 :- RestockLine(ps, lines[0]);
      RestockLines(ps1, lines[1..])
  }

  /** Total quantity of the lines that name product `pid`. */
  function QuantityFor(lines: seq<Orders.OrderLine>, pid: Id): int {
    if |lines| == 0 then 0
    else (if lines[0].productId == pid then lines[0].quantity else 0) + QuantityFor(lines[1..], pid)
  }

  /** With non-negative line quantities the total is non-negative. */
  lemma {:induction false} QuantityForNonNegative(lines: seq<Orders.OrderLine>, pid: Id)
    requires forall k :: 0 <= k < |lines| ==> lines[k].quantity >= 0
    ensures QuantityFor(lines, pid) >= 0
    decreases |lines|
  {
    if |lines| > 0 {
      assert forall k :: 0 <= k < |lines[1..]| ==> lines[1..][k] == lines[k + 1];
      QuantityForNonNegative(lines[1..], pid);
    }
  }

  /** With unique product ids, valid stocks, non-negative line quantities
      and totals that keep every product within the `INTEGER` range,
      restitution succeeds and credits each product with the total quantity
      of the lines that name it. */
  lemma {:induction false} RestockLinesCredits(ps: seq<Product>, lines: seq<Orders.OrderLine>)
    requires UniqueKeys(ps, ProductKey)
    requires forall j :: 0 <= j < |ps| ==> ValidStock(ps[j].stock)
    requires forall k :: 0 <= k < |lines| ==> lines[k].quantity >= 0
    requires forall j :: 0 <= j < |ps| ==> ps[j].stock + QuantityFor(lines, ps[j].id) <= MaxInt
    ensures RestockLines(ps, lines).Ok?
    ensures forall j :: 0 <= j < |ps| ==>
      RestockLines(ps, lines).value[j].stock == ps[j].stock + QuantityFor(lines, ps[j].id)
    decreases |lines|
  {
    if |lines| > 0 {
      assert forall k :: 0 <= k < |lines[1..]| ==> lines[1..][k] == lines[k + 1];
      forall j | 0 <= j < |ps|
        ensures QuantityFor(lines[1..], ps[j].id) >= 0
      {
        QuantityForNonNegative(lines[1..], ps[j].id);
      }
      RestockLineCredits(ps, lines[0]);
      var ps1 := RestockLine(ps, lines[0]).value;
      assert UniqueKeys(ps1, ProductKey) by {
        forall i, j | 0 <= i < j < |ps1| ensures ps1[i].id != ps1[j].id {
          assert ps1[i].id == ps[i].id && ps1[j].id == ps[j].id;
        }
      }
      assert forall k :: 0 <= k < |lines[1..]| ==> lines[1..][k].quantity >= 0 by {
        forall k | 0 <= k < |lines[1..]| ensures lines[1..][k].quantity >= 0 {
          assert lines[1..][k] == lines[k + 1];
        }
      }
      RestockLinesCredits(ps1, lines[1..]);
    }
  }

  /** `pedido.cancelar()`: refused unless `puedeCancelar()`; otherwise each
      line of the order credits its product's stock, and the status becomes
      'cancelado'. */
  function CancelOrder(st: Store, oid: Id): (r: Result<Store>)
    ensures FindOrder(st, oid).None? ==> r == Err(NotFound)
    ensures FindOrder(st, oid).Some? && !Orders.CanCancel(FindOrder(st, oid).value) ==> r == Err(CannotCancel)
    ensures r.Ok? ==>
      var o := FindOrder(st, oid).value;
      && Orders.CanCancel(o)
      && FindOrder(r.value, oid) == Some(o.(status := Orders.Cancelled))
      && r.value.users == st.users && r.value.cart == st.cart && r.value.orderLines == st.orderLines
      && r.value.catalog.categories == st.catalog.categories
      && r.value.catalog.subcategories == st.catalog.subcategories
      && RestockLines(st.catalog.products, OrderLinesOf(st.orderLines, oid)) == Ok(r.value.catalog.products)
      && |r.value.orders| == |st.orders|
      && (forall j :: 0 <= j < |st.orders| && st.orders[j].id != oid ==> r.value.orders[j] == st.orders[j])
  {
    match IndexOf(st.orders, Orders.OrderKey, oid)
    case None => Err(NotFound)
    case Some(i) =>
      var o := st.orders[i];
      if !Orders.CanCancel(o) then Err(CannotCancel)
      else
        var ps :- RestockLines(st.catalog.products, OrderLinesOf(st.orderLines, oid));
        var cancelled := o.(status := Orders.Cancelled);
        IndexOfAfterReplace(st.orders, Orders.OrderKey, i, cancelled);
        Ok(st.(catalog := st.catalog.(products := ps), orders := st.orders[i := cancelled]))
  }

  /** On a store with unique product ids, valid stocks and valid order
      lines, cancelling a cancellable order whose restitution keeps every
      stock within the `INTEGER` range succeeds and raises each product's
      stock by the total quantity the order's lines hold of it. */
  lemma CancelOrderRestocks(st: Store, oid: Id)
    requires UniqueKeys(st.catalog.products, ProductKey)
    requires forall j :: 0 <= j < |st.catalog.products| ==> ValidStock(st.catalog.products[j].stock)
    requires forall k :: 0 <= k < |st.orderLines| ==> Orders.ValidLine(st.orderLines[k])
    requires forall j :: 0 <= j < |st.catalog.products| ==>
      st.catalog.products[j].stock + QuantityFor(OrderLinesOf(st.orderLines, oid), st.catalog.products[j].id) <= MaxInt
    requires FindOrder(st, oid).Some? && Orders.CanCancel(FindOrder(st, oid).value)
    ensures CancelOrder(st, oid).Ok?
    ensures forall j :: 0 <= j < |st.catalog.products| ==>
      CancelOrder(st, oid).value.catalog.products[j].stock
        == st.catalog.products[j].stock + QuantityFor(OrderLinesOf(st.orderLines, oid), st.catalog.products[j].id)
  {
    var mine := OrderLinesOf(st.orderLines, oid);
    forall k | 0 <= k < |mine| ensures mine[k].quantity >= 0 {
      assert mine[k] in st.orderLines;
      var m :| 0 <= m < |st.orderLines| && st.orderLines[m] == mine[k];
      assert Orders.ValidLine(st.orderLines[m]);
    }
    RestockLinesCredits(st.catalog.products, mine);
  }

  /** A cancelled order cannot be cancelled again. */
  lemma CancelTwiceRefused(st: Store, oid: Id)
    requires CancelOrder(st, oid).Ok?
    ensures CancelOrder(CancelOrder(st, oid).value, oid) == Err(CannotCancel)
  {
  }

  // ---------------------------------------------------------------------
  // Inserts and cancellation keep every foreign key pointing at a row
  // ---------------------------------------------------------------------

  lemma AddCartLineKeepsReferences(st: Store, userId: Id, productId: Id, quantity: Option<int>, unitPrice: Cents)
    requires ReferencesIntact(st)
    requires AddCartLine(st, userId, productId, quantity, unitPrice).Ok?
    ensures ReferencesIntact(AddCartLine(st, userId, productId, quantity, unitPrice).value)
  {
    var next := AddCartLine(st, userId, productId, quantity, unitPrice).value;
    assert next.cart == st.cart + [next.cart[|st.cart|]];
  }

  lemma CreateOrderKeepsReferences(st: Store, userId: Id, total: Cents, address: string, phone: string, notes: Option<string>)
    requires ReferencesIntact(st)
    requires CreateOrder(st, userId, total, address, phone, notes).Ok?
    ensures ReferencesIntact(CreateOrder(st, userId, total, address, phone, notes).value)
  {
    var next := CreateOrder(st, userId, total, address, phone, notes).value;
    assert next.orders == st.orders + [next.orders[|st.orders|]];
    forall d | d in next.orderLines
      ensures HasKey(next.orders, Orders.OrderKey, d.orderId)
    {
      var i :| 0 <= i < |st.orders| && st.orders[i].id == d.orderId;
      assert next.orders[i] == st.orders[i];
    }
  }

  lemma CreateDetailsKeepsReferences(st: Store, orderId: Id, items: seq<Carts.CartLine>)
    requires ReferencesIntact(st)
    requires CreateDetailsFromCart(st, orderId, items).Ok?
    ensures ReferencesIntact(CreateDetailsFromCart(st, orderId, items).value)
  {
    var ds := Orders.LinesFromCart(orderId, items, FreshKey(st.orderLines, Orders.OrderLineKey)).value;
    forall d | d in ds
      ensures HasKey(st.orders, Orders.OrderKey, d.orderId) && HasKey(st.catalog.products, ProductKey, d.productId)
    {
      var k :| 0 <= k < |ds| && ds[k] == d;
      assert HasKey(st.catalog.products, ProductKey, items[k].productId);
    }
  }

  lemma CancelOrderKeepsReferences(st: Store, oid: Id)
    requires ReferencesIntact(st)
    requires CancelOrder(st, oid).Ok?
    ensures ReferencesIntact(CancelOrder(st, oid).value)
  {
    var next := CancelOrder(st, oid).value;
    var ps := st.catalog.products;
    var qs := next.catalog.products;
    forall pid | HasKey(ps, ProductKey, pid)
      ensures HasKey(qs, ProductKey, pid)
    {
      var j :| 0 <= j < |ps| && ps[j].id == pid;
      assert qs[j].id == pid;
    }
    forall id | HasKey(st.orders, Orders.OrderKey, id)
      ensures HasKey(next.orders, Orders.OrderKey, id)
    {
      var j :| 0 <= j < |st.orders| && st.orders[j].id == id;
      if st.orders[j].id != oid {
        assert next.orders[j] == st.orders[j];
      } else {
        var k := IndexOf(next.orders, Orders.OrderKey, oid).value;
        assert next.orders[k].id == id;
      }
    }
    forall o | o in next.orders
      ensures o.userId in st.users
    {
      var j :| 0 <= j < |next.orders| && next.orders[j] == o;
      if st.orders[j].id != oid {
        assert o == st.orders[j];
      } else {
        assert o.userId == FindOrder(st, oid).value.userId || o == st.orders[j];
      }
    }
  }

  // ---------------------------------------------------------------------
  // Deletes and the foreign-key rules
  // ---------------------------------------------------------------------

  /** `pedido.destroy()`: the `beforeDestroy` hook always throws, so an
      order is never deleted. */
  function DeleteOrder(st: Store, oid: Id): (r: Result<Store>)
    ensures r.Err?
    ensures HasKey(st.orders, Orders.OrderKey, oid) ==> r.error == UseCancelInstead
  {
    if !HasKey(st.orders, Orders.OrderKey, oid) then Err(NotFound) else Err(UseCancelInstead)
  }

  function NotOfUser(uid: Id): Carts.CartLine -> bool {
    (l: Carts.CartLine) => l.userId != uid
  }

  /** Deleting a user: refused while the user has orders (`RESTRICT`);
      otherwise the user's cart lines go with them (`CASCADE`). */
  function DeleteUser(st: Store, uid: Id): (r: Result<Store>)
    ensures uid !in st.users ==> r == Err(NotFound)
    ensures uid in st.users && (exists o :: o in st.orders && o.userId == uid) ==> r == Err(Restricted)
    ensures r.Ok? <==> uid in st.users && forall o :: o in st.orders ==> o.userId != uid
    ensures r.Ok? ==>
      && r.value.users == st.users - {uid}
      && (forall l :: l in r.value.cart <==> l in st.cart && l.userId != uid)
      && r.value.catalog == st.catalog && r.value.orders == st.orders && r.value.orderLines == st.orderLines
  {
    if uid !in st.users then Err(NotFound)
    else if exists o :: o in st.orders && o.userId == uid then Err(Restricted)
    else Ok(st.(users := st.users - {uid}, cart := Filter(st.cart, NotOfUser(uid))))
  }

  lemma DeleteUserKeepsReferences(st: Store, uid: Id)
    requires ReferencesIntact(st)
    requires DeleteUser(st, uid).Ok?
    ensures ReferencesIntact(DeleteUser(st, uid).value)
  {
  }

  function NotProduct(pid: Id): Product -> bool {
    (p: Product) => p.id != pid
  }

  function NotOfProduct(pid: Id): Carts.CartLine -> bool {
    (l: Carts.CartLine) => l.productId != pid
  }

  /** Deleting a product: refused while an order line names it
      (`RESTRICT`); otherwise its cart lines go with it (`CASCADE`). */
  function DeleteProduct(st: Store, pid: Id): (r: Result<Store>)
    ensures !HasKey(st.catalog.products, ProductKey, pid) ==> r == Err(NotFound)
    ensures HasKey(st.catalog.products, ProductKey, pid) && (exists d :: d in st.orderLines && d.productId == pid)
      ==> r == Err(Restricted)
    ensures r.Ok? <==>
      HasKey(st.catalog.products, ProductKey, pid) && forall d :: d in st.orderLines ==> d.productId != pid
    ensures r.Ok? ==>
      && (forall p :: p in r.value.catalog.products <==> p in st.catalog.products && p.id != pid)
      && (forall l :: l in r.value.cart <==> l in st.cart && l.productId != pid)
      && r.value.catalog.categories == st.catalog.categories
      && r.value.catalog.subcategories == st.catalog.subcategories
      && r.value.users == st.users && r.value.orders == st.orders && r.value.orderLines == st.orderLines
  {
    if !HasKey(st.catalog.products, ProductKey, pid) then Err(NotFound)
    else if exists d :: d in st.orderLines && d.productId == pid then Err(Restricted)
    else
      Ok(st.(catalog := st.catalog.(products := Filter(st.catalog.products, NotProduct(pid))),
             cart := Filter(st.cart, NotOfProduct(pid))))
  }

  lemma DeleteProductKeepsReferences(st: Store, pid: Id)
    requires ReferencesIntact(st)
    requires DeleteProduct(st, pid).Ok?
    ensures ReferencesIntact(DeleteProduct(st, pid).value)
  {
    var ps := st.catalog.products;
    var next := DeleteProduct(st, pid).value;
    forall l | l in next.cart ensures HasKey(next.catalog.products, ProductKey, l.productId) {
      FilterKeepsKey(ps, NotProduct(pid), ProductKey, l.productId);
    }
    forall d | d in next.orderLines ensures HasKey(next.catalog.products, ProductKey, d.productId) {
      FilterKeepsKey(ps, NotProduct(pid), ProductKey, d.productId);
    }
  }

  /** Ids of the products a delete removes. */
  function IdsOf(ps: seq<Product>, doomed: Product -> bool): set<Id> {
    set p | p in ps && doomed(p) :: p.id
  }

  predicate RestrictedBy(lines: seq<Orders.OrderLine>, ids: set<Id>) {
    exists d :: d in lines && d.productId in ids
  }

  function OutsideSubcategory(sid: Id): Product -> bool {
    (p: Product) => p.subcategoryId != sid
  }

  function NotSubcategory(sid: Id): Subcategory -> bool {
    (s: Subcategory) => s.id != sid
  }

  function NotAmong(ids: set<Id>): Carts.CartLine -> bool {
    (l: Carts.CartLine) => l.productId !in ids
  }

  /** Deleting a subcategory: its products go with it (`CASCADE`), and
      their cart lines with them; refused when an order line names one of
      those products (`RESTRICT`). */
  function DestroySubcategory(st: Store, sid: Id): (r: Result<Store>)
    ensures !HasKey(st.catalog.subcategories, SubcategoryKey, sid) ==> r == Err(NotFound)
    ensures r.Ok? <==>
      && HasKey(st.catalog.subcategories, SubcategoryKey, sid)
      && forall d, p :: d in st.orderLines && p in st.catalog.products && p.subcategoryId == sid ==> d.productId != p.id
    ensures r.Ok? ==>
      && (forall s :: s in r.value.catalog.subcategories <==> s in st.catalog.subcategories && s.id != sid)
      && (forall p :: p in r.value.catalog.products <==> p in st.catalog.products && p.subcategoryId != sid)
      && (forall l :: l in r.value.cart ==> l in st.cart)
      && (forall l :: l in st.cart && (forall p :: p in st.catalog.products && p.id == l.productId ==> p.subcategoryId != sid)
            ==> l in r.value.cart)
      && r.value.catalog.categories == st.catalog.categories
      && r.value.users == st.users && r.value.orders == st.orders && r.value.orderLines == st.orderLines
  {
    var ps := st.catalog.products;
    var gone := IdsOf(ps, (p: Product) => p.subcategoryId == sid);
    if !HasKey(st.catalog.subcategories, SubcategoryKey, sid) then Err(NotFound)
    else if RestrictedBy(st.orderLines, gone) then Err(Restricted)
    else
      Ok(st.(catalog := st.catalog.(subcategories := Filter(st.catalog.subcategories, NotSubcategory(sid)),
                                    products := Filter(ps, OutsideSubcategory(sid))),
             cart := Filter(st.cart, NotAmong(gone))))
  }

  lemma DestroySubcategoryKeepsReferences(st: Store, sid: Id)
    requires ReferencesIntact(st)
    requires DestroySubcategory(st, sid).Ok?
    ensures ReferencesIntact(DestroySubcategory(st, sid).value)
  {
    var c := st.catalog;
    var next := DestroySubcategory(st, sid).value;
    forall p | p in next.catalog.products
      ensures HasKey(next.catalog.subcategories, SubcategoryKey, p.subcategoryId)
    {
      FilterKeepsKey(c.subcategories, NotSubcategory(sid), SubcategoryKey, p.subcategoryId);
    }
    forall l | l in next.cart ensures HasKey(next.catalog.products, ProductKey, l.productId) {
      FilterKeepsKey(c.products, OutsideSubcategory(sid), ProductKey, l.productId);
    }
    forall d | d in next.orderLines ensures HasKey(next.catalog.products, ProductKey, d.productId) {
      FilterKeepsKey(c.products, OutsideSubcategory(sid), ProductKey, d.productId);
    }
  }

  /** Ids of the subcategories of category `cid`. */
  function SubcategoryIdsOf(subs: seq<Subcategory>, cid: Id): set<Id> {
    set s | s in subs && s.categoryId == cid :: s.id
  }

  function NotCategory(cid: Id): Category -> bool {
    (c: Category) => c.id != cid
  }

  function OutsideCategory(cid: Id): Subcategory -> bool {
    (s: Subcategory) => s.categoryId != cid
  }

  /** A product survives the delete of category `cid` when neither its
      category nor its subcategory is removed. */
  function SurvivesCategory(cid: Id, subIds: set<Id>): Product -> bool {
    (p: Product) => p.categoryId != cid && p.subcategoryId !in subIds
  }

  /** Deleting a category: its subcategories go with it, and every product
      of the category or of one of those subcategories (`CASCADE`), and
      the cart lines of those products; refused when an order line names
      one of those products (`RESTRICT`). */
  function DestroyCategory(st: Store, cid: Id): (r: Result<Store>)
    ensures !HasKey(st.catalog.categories, CategoryKey, cid) ==> r == Err(NotFound)
    ensures r.Ok? ==>
      && HasKey(st.catalog.categories, CategoryKey, cid)
      && (forall c :: c in r.value.catalog.categories <==> c in st.catalog.categories && c.id != cid)
      && (forall s :: s in r.value.catalog.subcategories <==> s in st.catalog.subcategories && s.categoryId != cid)
      && (forall p :: p in r.value.catalog.products <==>
            p in st.catalog.products && p.categoryId != cid
            && p.subcategoryId !in SubcategoryIdsOf(st.catalog.subcategories, cid))
      && (forall l :: l in r.value.cart ==> l in st.cart)
      && r.value.users == st.users && r.value.orders == st.orders && r.value.orderLines == st.orderLines
    ensures HasKey(st.catalog.categories, CategoryKey, cid) ==>
      (r.Err? <==> exists d, p :: d in st.orderLines && p in st.catalog.products && d.productId == p.id
                                && !SurvivesCategory(cid, SubcategoryIdsOf(st.catalog.subcategories, cid))(p))
  {
    var subIds := SubcategoryIdsOf(st.catalog.subcategories, cid);
    var keep := SurvivesCategory(cid, subIds);
    var gone := IdsOf(st.catalog.products, (p: Product) => !keep(p));
    if !HasKey(st.catalog.categories, CategoryKey, cid) then Err(NotFound)
    else if RestrictedBy(st.orderLines, gone) then Err(Restricted)
    else
      Ok(st.(catalog := Hierarchy(Filter(st.catalog.categories, NotCategory(cid)),
                                  Filter(st.catalog.subcategories, OutsideCategory(cid)),
                                  Filter(st.catalog.products, keep)),
             cart := Filter(st.cart, NotAmong(gone))))
  }

  lemma DestroyCategoryKeepsReferences(st: Store, cid: Id)
    requires ReferencesIntact(st)
    requires DestroyCategory(st, cid).Ok?
    ensures ReferencesIntact(DestroyCategory(st, cid).value)
  {
    var c := st.catalog;
    var subIds := SubcategoryIdsOf(c.subcategories, cid);
    var keep := SurvivesCategory(cid, subIds);
    var next := DestroyCategory(st, cid).value;
    forall s | s in next.catalog.subcategories
      ensures HasKey(next.catalog.categories, CategoryKey, s.categoryId)
    {
      FilterKeepsKey(c.categories, NotCategory(cid), CategoryKey, s.categoryId);
    }
    forall p | p in next.catalog.products
      ensures HasKey(next.catalog.subcategories, SubcategoryKey, p.subcategoryId)
      ensures HasKey(next.catalog.categories, CategoryKey, p.categoryId)
    {
      FilterKeepsKey(c.subcategories, OutsideCategory(cid), SubcategoryKey, p.subcategoryId);
      FilterKeepsKey(c.categories, NotCategory(cid), CategoryKey, p.categoryId);
    }
    forall l | l in next.cart ensures HasKey(next.catalog.products, ProductKey, l.productId) {
      FilterKeepsKey(c.products, keep, ProductKey, l.productId);
    }
    forall d | d in next.orderLines ensures HasKey(next.catalog.products, ProductKey, d.productId) {
      FilterKeepsKey(c.products, keep, ProductKey, d.productId);
    }
  }
}

=== FILE: findings.dfy ===
/** Defects of the original code. For each one: a model of the code as it
    is written, a concrete input on which it departs from the documented
    behaviour, and the link to the corrected definition the rest of the
    model uses. */
module Findings {
  import opened Outcomes
  import opened Tables
  import opened Catalog
  import Text
  import Inventory
  import Carts
  import Orders
  import Admin
  import Db

  // ---------------------------------------------------------------------
  // Sample rows used by the counterexamples
  // ---------------------------------------------------------------------

  function Clothing(): Category { Category(1, "Ropa", None, true) }
  function Shirts(): Subcategory { Subcategory(2, "Camisas", None, 1, true) }
  function Shirt(): Product { Product(3, "Camisa", None, 1000, 5, Some("camisa.png"), 2, 1, true) }

  /** One active category with one active subcategory holding one product. */
  function Shop(): Hierarchy { Hierarchy([Clothing()], [Shirts()], [Shirt()]) }

  // ---------------------------------------------------------------------
  // reducirStock (backend/models/Producto.js:276)
  // ---------------------------------------------------------------------

  /** `reducirStock` as written: the guard calls `this.hayStock`, which
      `Producto` does not define, so every call throws before the stock
      is touched. */
  function ReduceStockAsWritten(p: Product, quantity: int): (r: Result<Product>)
    ensures r.Err?
  {
    Err(ScriptError)
  }

  /** With stock 5, debiting 2 fails as written, while the documented
      debit succeeds and leaves 3. */
  lemma ReduceStockAsWrittenFails()
    ensures ReduceStockAsWritten(Shirt(), 2).Err?
    ensures Inventory.ReduceStock(Shirt(), 2) == Ok(Shirt().(stock := 3))
  {
  }

  // ---------------------------------------------------------------------
  // obtenerUrlImagen (backend/models/Producto.js:251)
  // ---------------------------------------------------------------------

  /** `obtenerUrlImagen` as written: `null` exactly when the product HAS an
      image, and otherwise a URL ending in the text of the missing value. */
  function ImageUrlAsWritten(p: Product, frontendUrl: Option<string>): (r: Option<string>)
    ensures r.None? <==> p.image.Some? && p.image.value != ""
    ensures p.image.None? ==> r == Some(Inventory.BaseUrl(frontendUrl) + Inventory.UploadsSegment + "null")
  {
    if p.image.Some? && p.image.value != "" then None
    else Some(Inventory.BaseUrl(frontendUrl) + Inventory.UploadsSegment + (if p.image.None? then "null" else ""))
  }

  /** A product with an image gets no URL as written, and one without an
      image gets ".../uploads/null"; the documented function does the
      opposite. */
  lemma ImageUrlAsWrittenInverted()
    ensures ImageUrlAsWritten(Shirt(), None).None?
    ensures Inventory.ImageUrl(Shirt(), None) == Some(Inventory.DefaultBaseUrl + Inventory.UploadsSegment + "camisa.png")
    ensures ImageUrlAsWritten(Shirt().(image := None), None) == Some(Inventory.DefaultBaseUrl + Inventory.UploadsSegment + "null")
    ensures Inventory.ImageUrl(Shirt().(image := None), None).None?
  {
  }

  // ---------------------------------------------------------------------
  // afterUpdate of Categoria (backend/models/Categoria.js:78)
  // ---------------------------------------------------------------------

  /** `categoria.save()` as written: the hook tests `changed('Activo')`,
      which is never true for the attribute `activo`, so no child is ever
      deactivated. */
  function SaveCategoryAsWritten(h: Hierarchy, c: Category): (r: Result<Hierarchy>)
    ensures r.Ok? ==> r.value.subcategories == h.subcategories && r.value.products == h.products
    ensures r.Ok? ==> FindCategory(r.value, c.id) == Some(c)
    ensures FindCategory(h, c.id).None? ==> r == Err(NotFound)
  {
    match IndexOf(h.categories, CategoryKey, c.id)
    case None => Err(NotFound)
    case Some(i) =>
      var prev := h.categories[i];
      if c.name != prev.name && !ValidCategoryName(c.name) then Err(Invalid({Name}))
      else if c.name != prev.name && CategoryNameTaken(h.categories, c.name) then Err(Duplicate)
      else
        IndexOfAfterReplace(h.categories, CategoryKey, i, c);
        Ok(h.(categories := h.categories[i := c]))
  }

  /** Deactivating the category leaves its subcategory and product active
      as written; the documented hook deactivates both. */
  lemma CategoryCascadeNeverFiresAsWritten()
    ensures SaveCategoryAsWritten(Shop(), Clothing().(active := false)).Ok?
    ensures SaveCategoryAsWritten(Shop(), Clothing().(active := false)).value.subcategories[0].active
    ensures SaveCategoryAsWritten(Shop(), Clothing().(active := false)).value.products[0].active
    ensures SaveCategory(Shop(), Clothing().(active := false)).Ok?
    ensures !SaveCategory(Shop(), Clothing().(active := false)).value.subcategories[0].active
    ensures !SaveCategory(Shop(), Clothing().(active := false)).value.products[0].active
  {
    assert IndexOf(Shop().categories, CategoryKey, 1) == Some(0);
  }

  // ---------------------------------------------------------------------
  // crearProductos (backend/controllers/productos.controller.js:165-221)
  // ---------------------------------------------------------------------

  /** The JavaScript values the guard at :205 compares. */
  datatype JsValue = JsBool(b: bool) | JsNumber(n: int)

  /** `!x` of a number. */
  function Not(x: JsValue): JsValue {
    match x
    case JsBool(b) => JsBool(!b)
    case JsNumber(n) => JsBool(n == 0)
  }

  /** `a !== b`: values of different types are always different. */
  predicate StrictlyDifferent(a: JsValue, b: JsValue) {
    a != b
  }

  /** The guard `!subcategoria.categoriaId !== parseInt(categoriaId)`. */
  predicate MismatchGuardAsWritten(subcategoryCategoryId: int, categoryId: int) {
    StrictlyDifferent(Not(JsNumber(subcategoryCategoryId)), JsNumber(categoryId))
  }

  /** The guard at :205 rejects every pair of ids, equal ones included. */
  lemma MismatchGuardAlwaysRejects(subcategoryCategoryId: int, categoryId: int)
    ensures MismatchGuardAsWritten(subcategoryCategoryId, categoryId)
  {
  }

  /** `crearProductos` as written, from the required-field check through
      the guard at :205 (the subcategory is looked up by its id). */
  function CreateProductAsWritten(h: Hierarchy, q: Admin.ProductRequest): (r: Result<Hierarchy>)
    ensures r.Err?
  {
    if !Admin.RequiredPresent(q) then Err(MissingFields)
    else
      var cid := q.categoryId.value;
      match FindCategory(h, cid)
      case None => Err(NotFound)
      case Some(c) =>
        if !c.active then Err(ParentInactive)
        else
          match FindSubcategory(h, q.subcategoryId.value)
          case None => Err(NotFound)
          case Some(s) =>
            if !s.active then Err(ParentInactive)
            else if MismatchGuardAsWritten(s.categoryId, cid) then Err(HierarchyMismatch)
            // The stock and price guards at :213 and :221 and the create
            // after them are never reached.
            else assert false; Err(HierarchyMismatch)
  }

  function ShirtRequest(): Admin.ProductRequest {
    Admin.ProductRequest(Some("Camiseta"), None, Some(2500), Some(10), Some(1), Some(2), None)
  }

  /** A well-formed request for an active category and subcategory is
      refused as written and accepted by the documented checks. */
  lemma CreateProductAsWrittenRefuses()
    ensures CreateProductAsWritten(Shop(), ShirtRequest()).Err?
    ensures Admin.CreateProduct(Shop(), ShirtRequest()).Ok?
  {
    assert !Text.IsWhiteSpace("Camiseta"[0]);
    assert IndexOf(Shop().categories, CategoryKey, 1) == Some(0);
    assert IndexOf(Shop().subcategories, SubcategoryKey, 2) == Some(0);
  }

  // ---------------------------------------------------------------------
  // eliminarSubCategoria (backend/controllers/productos.controller.js:477)
  // ---------------------------------------------------------------------

  function OutsideSubcategory(id: Id): Product -> bool {
    (p: Product) => p.subcategoryId != id
  }

  /** `eliminarSubCategoria` as written at :477, with the lookup at :467
      taken as fixed (as written, `findByPK` throws there and nothing is
      deleted): the guard counts the products whose CATEGORY id equals the
      subcategory's id; the destroy then removes the subcategory and, by
      `ON DELETE CASCADE`, its products. */
  function DeleteSubcategoryAsWritten(h: Hierarchy, id: Id): (r: Result<Hierarchy>)
    ensures FindSubcategory(h, id).None? ==> r == Err(NotFound)
    ensures FindSubcategory(h, id).Some? ==> (r.Ok? <==> CountProductsOfCategory(h.products, id) == 0)
    ensures r.Ok? ==> forall p :: p in r.value.products <==> p in h.products && p.subcategoryId != id
  {
    match FindSubcategory(h, id)
    case None => Err(NotFound)
    case Some(_) =>
      if CountProductsOfCategory(h.products, id) > 0 then Err(HasDependents)
      else
        Ok(h.(subcategories := Filter(h.subcategories, Admin.NotSubcategory(id)),
              products := Filter(h.products, OutsideSubcategory(id))))
  }

  /** Once the lookup at :467 is fixed, deleting subcategory 2, which
      holds a product of category 1, goes through the guard at :477 and
      takes the product with it; the documented check refuses it. */
  lemma DeleteSubcategoryAsWrittenLosesProducts()
    ensures DeleteSubcategoryAsWritten(Shop(), 2).Ok?
    ensures Shirt() !in DeleteSubcategoryAsWritten(Shop(), 2).value.products
    ensures Admin.DeleteSubcategory(Shop(), 2) == Err(HasDependents)
  {
    assert IndexOf(Shop().subcategories, SubcategoryKey, 2) == Some(0);
  }

  // ---------------------------------------------------------------------
  // BeforeUpdate of DetallePedido (backend/models/DetallePedido.js:154)
  // ---------------------------------------------------------------------

  /** An update of a line as written: Sequelize does not know the hook
      name 'BeforeUpdate', so the subtotal is never recomputed. */
  function UpdateLineAsWritten(d: Orders.OrderLine, quantity: Option<int>, unitPrice: Option<Cents>): (r: Result<Orders.OrderLine>)
    ensures r.Ok? ==> r.value.subtotal == d.subtotal
    ensures r.Ok? ==> r.value.quantity == (if quantity.Some? then quantity.value else d.quantity)
  {
    var q := if quantity.Some? then quantity.value else d.quantity;
    var p := if unitPrice.Some? then unitPrice.value else d.unitPrice;
    var errs :=
      (if q != d.quantity && !Carts.ValidQuantity(q) then {Quantity} else {})
      + (if p != d.unitPrice && !ValidPrice(p) then {UnitPrice} else {});
    Validated(errs, d.(quantity := q, unitPrice := p))
  }

  /** Doubling the quantity of a 100-cent line leaves its stored subtotal
      at 100 as written, out of step with `calcularSubtotal()`. */
  lemma UpdateLineAsWrittenStale()
    ensures var d := Orders.OrderLine(1, 1, 3, 1, 100, 100);
      && UpdateLineAsWritten(d, Some(2), None).Ok?
      && UpdateLineAsWritten(d, Some(2), None).value.subtotal == 100
      && Orders.LineSubtotal(UpdateLineAsWritten(d, Some(2), None).value) == 200
      && Orders.UpdateLine(d, Some(2), None).Ok?
      && Orders.UpdateLine(d, Some(2), None).value.subtotal == 200
  {
  }

  // ---------------------------------------------------------------------
  // getCarrito (backend/controllers/carrito.controller.js:46-50)
  // ---------------------------------------------------------------------

  /** The cart total as written at :46-50, with the parse error of the
      module taken as fixed (as written, the `try` opened at :20 has no
      `catch` or `finally`, so no call runs at all): `totalCarrito` is a
      constant 0 and the loop adds into an undeclared `total`, which throws
      as soon as the caller has one line. */
  function CartTotalAsWritten(lines: seq<Carts.CartLine>, userId: Id): (r: Result<int>)
    ensures r.Ok? <==> |Carts.UserLines(lines, userId)| == 0
    ensures r.Ok? ==> r.value == 0
  {
    if |Carts.UserLines(lines, userId)| == 0 then Ok(0) else Err(ScriptError)
  }

  /** A cart with one line of 2 x 150 cents fails as written (whether or
      not the parse error is fixed); the summary reports 300. */
  lemma CartTotalAsWrittenFails()
    ensures var lines := [Carts.CartLine(1, 7, 3, 2, 150)];
      CartTotalAsWritten(lines, 7).Err? && Carts.Summary(lines, 7).total == 300
  {
    var lines := [Carts.CartLine(1, 7, 3, 2, 150)];
    assert lines[1..] == [];
    assert Carts.UserLines(lines, 7) == lines;
  }

  // ---------------------------------------------------------------------
  // Status changes (backend/models/Pedido.js:68, :187-202, :221-240)
  // ---------------------------------------------------------------------

  /** The spelling the `ENUM` column returns for a status once the row is
      read back: the column declares 'Pagado', and MySQL stores the value
      'pagado' as that member. */
  function StoredStatusName(s: Orders.Status): (r: string)
    ensures s != Orders.Paid ==> r == Orders.StatusName(s)
    ensures Orders.ParseStatus(r).Some? <==> s != Orders.Paid
  {
    if s == Orders.Paid then "Pagado" else Orders.StatusName(s)
  }

  /** `cambiarEstado` on an order read from the database, as written: the
      new name counts as a change when it differs from the stored spelling,
      so re-setting 'pagado' on a paid order stamps `fechaPago` again; and
      the hook at :192 tests `!changed('estado')`, which after a real
      change never holds, while an unchanged status makes `save()` return
      before any hook, so `fechaEnvio` is never stamped. */
  function ChangeStatusAsWritten(o: Orders.Order, name: string, now: Orders.Time): (r: Result<Orders.Order>)
    ensures r.Ok? <==> Orders.ParseStatus(name).Some?
    ensures r.Ok? ==> r.value.status == Orders.ParseStatus(name).value
    ensures r.Ok? ==> r.value.shippedAt == o.shippedAt
    ensures r.Ok? && r.value.status == Orders.Paid ==> r.value.paidAt == Some(now)
  {
    match Orders.ParseStatus(name)
    case None => Err(InvalidStatus)
    case Some(s) =>
      if name == StoredStatusName(o.status) then Ok(o)
      else
        var paid := if s == Orders.Paid then Some(now) else o.paidAt;
        Ok(o.(status := s, paidAt := paid))
  }

  /** Shipping a pending order leaves `fechaEnvio` empty as written; the
      documented hook stamps it. */
  lemma ShippedAtNeverStampedAsWritten()
    ensures var o := Orders.Order(1, 7, 1000, Orders.Pending, "Calle 1", "3001234567", None, None, None, None);
      && ChangeStatusAsWritten(o, "enviado", 42).Ok?
      && ChangeStatusAsWritten(o, "enviado", 42).value.shippedAt.None?
      && Orders.ChangeStatus(o, "enviado", 42).Ok?
      && Orders.ChangeStatus(o, "enviado", 42).value.shippedAt == Some(42)
  {
  }

  /** `puedeCancelar()` on an order read from the database, as written: a
      paid order reads back as 'Pagado', which is not in the list. */
  function CanCancelAsWritten(o: Orders.Order): (r: bool)
    ensures r <==> o.status == Orders.Pending
  {
    var stored := StoredStatusName(o.status);
    stored == "pendiente" || stored == "pagado"
  }

  /** `cancelar()` of an order read from the database, as written: refused
      unless `puedeCancelar()` holds of its stored spelling. */
  function CancelOrderAsWritten(st: Db.Store, oid: Id): (r: Result<Db.Store>)
    ensures Db.FindOrder(st, oid).Some? && Db.FindOrder(st, oid).value.status == Orders.Paid ==> r == Err(CannotCancel)
    ensures Db.FindOrder(st, oid).None? ==> r == Err(NotFound)
    ensures Db.FindOrder(st, oid).Some? && CanCancelAsWritten(Db.FindOrder(st, oid).value) ==> r == Db.CancelOrder(st, oid)
  {
    match Db.FindOrder(st, oid)
    case None => Err(NotFound)
    case Some(o) => if CanCancelAsWritten(o) then Db.CancelOrder(st, oid) else Err(CannotCancel)
  }

  function PaidOrder(): Orders.Order {
    Orders.Order(1, 7, 1000, Orders.Paid, "Calle 1", "3001234567", None, Some(10), None, None)
  }

  /** A paid order read back from the database cannot be cancelled as
      written, and setting 'pagado' on it again moves its payment date;
      the documented rules cancel it and keep the date. */
  lemma PaidOrderAsWritten()
    ensures !CanCancelAsWritten(PaidOrder()) && Orders.CanCancel(PaidOrder())
    ensures CancelOrderAsWritten(Db.Store({7}, Shop(), [], [PaidOrder()], []), 1) == Err(CannotCancel)
    ensures Db.CancelOrder(Db.Store({7}, Shop(), [], [PaidOrder()], []), 1).Ok?
    ensures ChangeStatusAsWritten(PaidOrder(), "pagado", 42).value.paidAt == Some(42)
    ensures Orders.ChangeStatus(PaidOrder(), "pagado", 42).value == PaidOrder()
  {
    var st := Db.Store({7}, Shop(), [], [PaidOrder()], []);
    assert IndexOf(st.orders, Orders.OrderKey, 1) == Some(0);
    assert Db.OrderLinesOf(st.orderLines, 1) == [];
  }

  // ---------------------------------------------------------------------
  // beforeCreate of DetallePedido (backend/models/DetallePedido.js:102-113, :145-148)
  // ---------------------------------------------------------------------

  /** `DetallePedido.create` as written: the validators run before the
      `beforeCreate` hook, so a line created without a subtotal fails the
      `allowNull: false` of `subtotal`; a supplied subtotal is replaced by
      the hook and the replaced value is validated again. */
  function CreateLineAsWritten(id: Id, orderId: Id, productId: Id, quantity: int, unitPrice: Cents, subtotal: Option<Cents>)
    : (r: Result<Orders.OrderLine>)
    ensures subtotal.None? ==> r.Err? && r.error.Invalid? && Subtotal in r.error.fields
    ensures subtotal.Some? && Orders.LineErrors(quantity, unitPrice, subtotal.value) == {} ==>
      r == Orders.CreateLine(id, orderId, productId, quantity, unitPrice)
  {
    var given := Orders.LineErrors(quantity, unitPrice, if subtotal.Some? then subtotal.value else 0)
                 + (if subtotal.None? then {Subtotal} else {});
    if given != {} then Err(Invalid(given))
    else Orders.CreateLine(id, orderId, productId, quantity, unitPrice)
  }

  /** Copying a cart line of 2 x 150 cents, which passes no subtotal, fails
      as written; the documented hook computes 300. */
  lemma CreateLineAsWrittenNeedsSubtotal()
    ensures CreateLineAsWritten(1, 1, 3, 2, 150, None) == Err(Invalid({Subtotal}))
    ensures Orders.CreateLine(1, 1, 3, 2, 150).Ok?
    ensures Orders.CreateLine(1, 1, 3, 2, 150).value.subtotal == 300
  {
  }
}

=== FILE: inventory.dfy ===
/** Instance methods of `Producto`: the stock ledger (availability check,
    debit, credit) and the public URL of the product image. */
module Inventory {
  import opened Outcomes
  import opened Catalog
  import Text

  /** `hayStockDisponible` asks for 3 units when called without argument. */
  const DefaultRequestedQuantity: int := 3

  /** URL used when no frontend URL is configured. */
  const DefaultBaseUrl: string := "http://localhost:5000"

  /** Path segment under which uploaded images are served. */
  const UploadsSegment: string := "/uploads/"

  /** `hayStockDisponible(cantidad = 3)`. */
  function HasStockAvailable(p: Product, quantity: Option<int>): (r: bool)
    ensures quantity.None? ==> (r <==> p.stock >= DefaultRequestedQuantity)
    ensures quantity.Some? ==> (r <==> p.stock >= quantity.value)
  {
    var wanted := if quantity.Some? then quantity.value else DefaultRequestedQuantity;
    p.stock >= wanted
  }

  /** `reducirStock(cantidad)`: refuses with 'Stock insuficiente' when the
      stock does not cover the quantity, otherwise debits it; the `save()`
      re-runs the stock validator, which from a valid stock only a negative
      quantity can fail (by leaving the `INTEGER` range). */
  function ReduceStock(p: Product, quantity: int): (r: Result<Product>)
    ensures !HasStockAvailable(p, Some(quantity)) ==> r == Err(InsufficientStock)
    ensures r.Ok? <==> HasStockAvailable(p, Some(quantity)) && ValidStock(p.stock - quantity)
    ensures ValidStock(p.stock) && quantity >= 0 ==> (r.Ok? <==> HasStockAvailable(p, Some(quantity)))
    ensures r.Err? && HasStockAvailable(p, Some(quantity)) ==> r.error == Invalid({Stock})
    ensures r.Ok? ==> r.value.stock == p.stock - quantity && r.value == p.(stock := r.value.stock)
  {
    // backend/models/Producto.js:276 calls a method `hayStock` that does not
    // exist and throws when stock IS available; the guard documented at
    // :270-273 (fail only when stock is insufficient) is modelled.
    if !HasStockAvailable(p, Some(quantity)) then Err(InsufficientStock)
    else if !ValidStock(p.stock - quantity) then Err(Invalid({Stock}))
    else Ok(p.(stock := p.stock - quantity))
  }

  /** `aumentarStock(cantidad)`: credits the stock; the `save()` re-runs the
      stock validator, so a credit that leaves the stock negative, or above
      the largest `INTEGER`, fails. */
  function IncreaseStock(p: Product, quantity: int): (r: Result<Product>)
    ensures r.Ok? <==> ValidStock(p.stock + quantity)
    ensures r.Err? ==> r.error == Invalid({Stock})
    ensures r.Ok? ==> r.value.stock == p.stock + quantity && r.value == p.(stock := r.value.stock)
    ensures ValidStock(p.stock) && 0 <= quantity <= MaxInt - p.stock ==> r.Ok?
    ensures ValidStock(p.stock) && quantity > MaxInt - p.stock ==> r.Err?
  {
    var stock := p.stock + quantity;
    if !ValidStock(stock) then Err(Invalid({Stock})) else Ok(p.(stock := stock))
  }

  /** A debit followed by a credit of the same quantity restores the product. */
  lemma ReduceThenIncreaseRestores(p: Product, quantity: int)
    requires ValidStock(p.stock)
    ensures ReduceStock(p, quantity).Ok? ==> IncreaseStock(ReduceStock(p, quantity).value, quantity) == Ok(p)
  {
  }

  /** A credit followed by a debit of the same quantity restores the
      product, when the credit stays within the `INTEGER` range. */
  lemma IncreaseThenReduceRestores(p: Product, quantity: int)
    requires ValidStock(p.stock) && 0 <= quantity <= MaxInt - p.stock
    ensures IncreaseStock(p, quantity).Ok?
    ensures ReduceStock(IncreaseStock(p, quantity).value, quantity) == Ok(p)
  {
  }

  /** The base URL: `FRONTEND_URL` when set and non-empty, else the default. */
  function BaseUrl(frontendUrl: Option<string>): string {
    if frontendUrl.Some? && frontendUrl.value != "" then frontendUrl.value else DefaultBaseUrl
  }

  /** `obtenerUrlImagen()`: base + "/uploads/" + image name, or `null` when
      the product has no image. */
  function ImageUrl(p: Product, frontendUrl: Option<string>): (r: Option<string>)
    ensures r.None? <==> p.image.None? || p.image.value == ""
    ensures r.Some? ==>
      && Text.StartsWith(r.value, BaseUrl(frontendUrl) + UploadsSegment)
      && r.value[|BaseUrl(frontendUrl) + UploadsSegment|..] == p.image.value
  {
    // backend/models/Producto.js:251 returns null exactly when an image IS
    // present; the behaviour of the doc comment at :244-248 is modelled.
    if p.image.None? || p.image.value == "" then None
    else Some(BaseUrl(frontendUrl) + UploadsSegment + p.image.value)
  }
}

=== FILE: orders.dfy ===
/** Orders (`Pedido`) and their lines (`DetallePedido`): the closed status
    set, status changes with their timestamps, the cancel guard, the
    subtotal hooks, copying cart lines into order lines, and the order
    total. */
module Orders {
  import opened Outcomes
  import opened Tables
  import Text
  import Catalog
  import Carts

  /** Instants supplied by the caller's clock. */
  type Time = int

  /** The closed status set of `Pedido.estado`. */
  datatype Status = Pending | Paid | Shipped | Cancelled

  /** The spelling of each status in the `isIn` validator and in
      `cambiarEstado`. The `ENUM` at backend/models/Pedido.js:68 spells
      'Pagado'; the lower-case spelling used everywhere else is modelled,
      and the spelling a paid row reads back with is a finding. */
  function StatusName(s: Status): string {
    match s
    case Pending => "pendiente"
    case Paid => "pagado"
    case Shipped => "enviado"
    case Cancelled => "cancelado"
  }

  /** The status a name denotes, if it is one of the four valid names. */
  function ParseStatus(name: string): (r: Option<Status>)
    ensures r.Some? ==> StatusName(r.value) == name
  {
    if name == "pendiente" then Some(Pending)
    else if name == "pagado" then Some(Paid)
    else if name == "enviado" then Some(Shipped)
    else if name == "cancelado" then Some(Cancelled)
    else None
  }

  /** Every status name parses back to its status. */
  lemma ParseStatusName(s: Status)
    ensures ParseStatus(StatusName(s)) == Some(s)
  {
  }

  /** Only the four names are accepted; any other spelling, 'Pagado'
      included, is not a status. */
  lemma ParseStatusOnlyNames(name: string)
    ensures ParseStatus(name).Some? <==> name in {"pendiente", "pagado", "enviado", "cancelado"}
  {
  }

  /** A row of `Pedidos`. The source names the total column
      `tottal` (`backend/models/Pedido.js:45`). */
  datatype Order = Order(
    id: Id,
    userId: Id,
    total: Catalog.Cents,
    status: Status,
    address: string,
    phone: string,
    notes: Option<string>,
    paidAt: Option<Time>,
    shippedAt: Option<Time>,
    deliveredAt: Option<Time>)

  function OrderKey(o: Order): Id { o.id }

  /** Every order field whose validator fails: `min: 0` on the total,
      `notEmpty` on the address and on the phone. */
  function OrderErrors(total: Catalog.Cents, address: string, phone: string): (r: set<Field>)
    ensures r == {} <==> Catalog.ValidPrice(total) && Text.NotBlank(address) && Text.NotBlank(phone)
    ensures Total in r <==> !Catalog.ValidPrice(total)
    ensures Address in r <==> !Text.NotBlank(address)
    ensures Phone in r <==> !Text.NotBlank(phone)
  {
    (if Catalog.ValidPrice(total) then {} else {Total})
    + (if Text.NotBlank(address) then {} else {Address})
    + (if Text.NotBlank(phone) then {} else {Phone})
  }

  /** `Pedido.create`: the validators; the status defaults to 'pendiente'
      and no timestamp is set. */
  function NewOrder(id: Id, userId: Id, total: Catalog.Cents, address: string, phone: string, notes: Option<string>)
    : (r: Result<Order>)
    ensures r.Ok? <==> OrderErrors(total, address, phone) == {}
    ensures r.Err? ==> r.error == Invalid(OrderErrors(total, address, phone))
    ensures r.Ok? ==>
      && r.value.status == Pending
      && r.value.total >= 0
      && r.value.paidAt.None? && r.value.shippedAt.None? && r.value.deliveredAt.None?
      && r.value.id == id && r.value.userId == userId && r.value.total == total
  {
    Validated(OrderErrors(total, address, phone),
              Order(id, userId, total, Pending, address, phone, notes, None, None, None))
  }

  /** The `afterUpdate` hook: entering 'pagado' stamps `fechaPago`;
      entering 'enviado' stamps `fechaEnvio` when it is still unset. */
  function Stamp(prev: Order, next: Order, now: Time): Order {
    var paid := if prev.status != Paid && next.status == Paid then Some(now) else next.paidAt;
    // backend/models/Pedido.js:192 tests `!pedido.changed('estado')`; the
    // change of status that the comment at :191 describes is modelled.
    var shipped := if prev.status != Shipped && next.status == Shipped && next.shippedAt.None? then Some(now) else next.shippedAt;
    next.(paidAt := paid, shippedAt := shipped)
  }

  /** `cambiarEstado(nuevoEstado)`: refuses a name outside the status set
      with 'Estado invalido'; otherwise sets exactly that status, with no
      order imposed between statuses. */
  function ChangeStatus(o: Order, name: string, now: Time): (r: Result<Order>)
    ensures ParseStatus(name).None? <==> r.Err?
    ensures r.Err? ==> r.error == InvalidStatus
    ensures r.Ok? ==>
      && StatusName(r.value.status) == name
      && r.value.(paidAt := o.paidAt, shippedAt := o.shippedAt) == o.(status := r.value.status)
      && (o.status != Paid && r.value.status == Paid ==> r.value.paidAt == Some(now))
      && (o.status == Paid || r.value.status != Paid ==> r.value.paidAt == o.paidAt)
      && (o.status != Shipped && r.value.status == Shipped && o.shippedAt.None? ==> r.value.shippedAt == Some(now))
      && (o.status == Shipped || r.value.status != Shipped || o.shippedAt.Some? ==> r.value.shippedAt == o.shippedAt)
      && (r.value.status == o.status ==> r.value == o)
  {
    match ParseStatus(name)
    case None => Err(InvalidStatus)
    case Some(s) => Ok(Stamp(o, o.(status := s), now))
  }

  /** From any status, `cambiarEstado` reaches any other status. */
  lemma AnyStatusReachable(o: Order, s: Status, now: Time)
    ensures ChangeStatus(o, StatusName(s), now).Ok?
    ensures ChangeStatus(o, StatusName(s), now).value.status == s
  {
    ParseStatusName(s);
  }

  /** `puedeCancelar()`: only pending or paid orders can be cancelled. */
  function CanCancel(o: Order): (r: bool)
    ensures r <==> o.status in {Pending, Paid}
  {
    o.status == Pending || o.status == Paid
  }

  // ---------------------------------------------------------------------
  // Order lines (DetallePedido)
  // ---------------------------------------------------------------------

  datatype OrderLine = OrderLine(
    id: Id,
    orderId: Id,
    productId: Id,
    quantity: int,
    unitPrice: Catalog.Cents,
    subtotal: Catalog.Cents)

  function OrderLineKey(d: OrderLine): Id { d.id }

  /** Every order-line field whose validator fails. */
  function LineErrors(quantity: int, unitPrice: Catalog.Cents, subtotal: Catalog.Cents): (r: set<Field>)
    ensures r == {} <==> Carts.ValidQuantity(quantity) && Catalog.ValidPrice(unitPrice) && Catalog.ValidPrice(subtotal)
    ensures Quantity in r <==> !Carts.ValidQuantity(quantity)
    ensures UnitPrice in r <==> !Catalog.ValidPrice(unitPrice)
    ensures Subtotal in r <==> !Catalog.ValidPrice(subtotal)
  {
    (if Carts.ValidQuantity(quantity) then {} else {Quantity})
    + (if Catalog.ValidPrice(unitPrice) then {} else {UnitPrice})
    + (if Catalog.ValidPrice(subtotal) then {} else {Subtotal})
  }

  predicate ValidLine(d: OrderLine) {
    LineErrors(d.quantity, d.unitPrice, d.subtotal) == {}
  }

  /** `calcularSubtotal()`: unit price times quantity; the line is left as
      it is. */
  function LineSubtotal(d: OrderLine): (r: Catalog.Cents)
    ensures d.quantity >= 1 && d.unitPrice >= 0 ==> d.unitPrice <= r
    ensures d.quantity >= 0 && d.unitPrice >= 0 ==> r >= 0
  {
    d.unitPrice * d.quantity
  }

  /** `DetallePedido.create`: the `beforeCreate` hook sets the subtotal to
      unit price times quantity, and that subtotal is validated with the
      other fields (the code as written validates before the hook, which
      is a finding). */
  function CreateLine(id: Id, orderId: Id, productId: Id, quantity: int, unitPrice: Catalog.Cents): (r: Result<OrderLine>)
    ensures r.Ok? <==> LineErrors(quantity, unitPrice, unitPrice * quantity) == {}
    ensures r.Ok? ==>
      && r.value.id == id && r.value.orderId == orderId && r.value.productId == productId
      && r.value.quantity == quantity && r.value.unitPrice == unitPrice
      && r.value.subtotal == LineSubtotal(r.value)
      && ValidLine(r.value)
  {
    var subtotal := unitPrice * quantity;
    Validated(LineErrors(quantity, unitPrice, subtotal), OrderLine(id, orderId, productId, quantity, unitPrice, subtotal))
  }

  /** An update of a line: the `beforeUpdate` hook recomputes the subtotal
      only when the unit price or the quantity changed; then the validators
      of the changed fields run. */
  function UpdateLine(d: OrderLine, quantity: Option<int>, unitPrice: Option<Catalog.Cents>): (r: Result<OrderLine>)
    ensures r.Ok? ==> r.value.id == d.id && r.value.orderId == d.orderId && r.value.productId == d.productId
    ensures r.Ok? ==> r.value.quantity == (if quantity.Some? then quantity.value else d.quantity)
    ensures r.Ok? ==> r.value.unitPrice == (if unitPrice.Some? then unitPrice.value else d.unitPrice)
    ensures r.Ok? && (r.value.quantity != d.quantity || r.value.unitPrice != d.unitPrice) ==>
      r.value.subtotal == LineSubtotal(r.value)
    ensures r.Ok? && r.value.quantity == d.quantity && r.value.unitPrice == d.unitPrice ==> r.value == d
    ensures var q := if quantity.Some? then quantity.value else d.quantity;
      var p := if unitPrice.Some? then unitPrice.value else d.unitPrice;
      var s := if q != d.quantity || p != d.unitPrice then p * q else d.subtotal;
      r.Ok? <==>
        && (q == d.quantity || Carts.ValidQuantity(q))
        && (p == d.unitPrice || Catalog.ValidPrice(p))
        && (s == d.subtotal || Catalog.ValidPrice(s))
    ensures ValidLine(d) && r.Ok? ==> ValidLine(r.value)
  {
    // The hook is registered as 'BeforeUpdate' at
    // backend/models/DetallePedido.js:154, a name Sequelize does not
    // recognise; the recomputation its comment at :150-153 describes is
    // modelled.
    var q := if quantity.Some? then quantity.value else d.quantity;
    var p := if unitPrice.Some? then unitPrice.value else d.unitPrice;
    var changed := q != d.quantity || p != d.unitPrice;
    var s := if changed then p * q else d.subtotal;
    var errs :=
      (if q != d.quantity && !Carts.ValidQuantity(q) then {Quantity} else {})
      + (if p != d.unitPrice && !Catalog.ValidPrice(p) then {UnitPrice} else {})
      + (if s != d.subtotal && !Catalog.ValidPrice(s) then {Subtotal} else {});
    Validated(errs, d.(quantity := q, unitPrice := p, subtotal := s))
  }

  /** `crearDesdeCarrito(pedidoId, itemsCarrito)`: one line per cart item, in
      order, copying product, quantity and unit price; ids are consecutive
      from `firstId`. */
  function LinesFromCart(orderId: Id, items: seq<Carts.CartLine>, firstId: Id): (r: Result<seq<OrderLine>>)
    ensures r.Ok? <==> forall k :: 0 <= k < |items| ==>
      LineErrors(items[k].quantity, items[k].unitPrice, items[k].unitPrice * items[k].quantity) == {}
    ensures r.Ok? ==> |r.value| == |items|
    ensures r.Ok? ==> forall k :: 0 <= k < |items| ==>
      && r.value[k].id == firstId + k
      && r.value[k].orderId == orderId
      && r.value[k].productId == items[k].productId
      && r.value[k].quantity == items[k].quantity
      && r.value[k].unitPrice == items[k].unitPrice
      && r.value[k].subtotal == Carts.LineValue(items[k])
    decreases |items|
  {
    // backend/models/DetallePedido.js:181 names the parameter `npedidoId`
    // but :185 reads `pedidoId`; the parameter is used here.
    if |items| == 0 then Ok([])
    else
      var item := items[0];
      match CreateLine(firstId, orderId, item.productId, item.quantity, item.unitPrice)
      case Err(e) => Err(e)
      case Ok(d) =>
        var rest := LinesFromCart(orderId, items[1..], firstId + 1);
        assert forall k :: 1 <= k < |items| ==> items[k] == items[1..][k - 1];
        match rest
        case Err(e) => Err(e)
        case Ok(ds) => Ok([d] + ds)
  }

  /** `calcularTotalPedido(pedidoId)`: sum of the subtotals of the lines of
      the order; 0 when it has none. */
  function OrderTotal(lines: seq<OrderLine>, orderId: Id): (r: Catalog.Cents)
    ensures (forall k :: 0 <= k < |lines| ==> lines[k].orderId != orderId) ==> r == 0
  {
    if |lines| == 0 then 0
    else
      assert forall k :: 1 <= k < |lines| ==> lines[k] == lines[1..][k - 1];
      (if lines[0].orderId == orderId then lines[0].subtotal else 0) + OrderTotal(lines[1..], orderId)
  }

  lemma {:induction false} OrderTotalOfConcat(a: seq<OrderLine>, b: seq<OrderLine>, orderId: Id)
    ensures OrderTotal(a + b, orderId) == OrderTotal(a, orderId) + OrderTotal(b, orderId)
  {
    if |a| > 0 {
      assert (a + b)[1..] == a[1..] + b;
      OrderTotalOfConcat(a[1..], b, orderId);
    } else {
      assert a + b == b;
    }
  }

  /** The total of the lines copied from a cart equals the cart's value. */
  lemma {:induction false} LinesFromCartTotal(orderId: Id, items: seq<Carts.CartLine>, firstId: Id)
    requires LinesFromCart(orderId, items, firstId).Ok?
    ensures OrderTotal(LinesFromCart(orderId, items, firstId).value, orderId) == Carts.CartValue(items)
    decreases |items|
  {
    if |items| > 0 {
      var ls := LinesFromCart(orderId, items, firstId).value;
      LinesFromCartTotal(orderId, items[1..], firstId + 1);
      assert ls[1..] == LinesFromCart(orderId, items[1..], firstId + 1).value;
    }
  }

  /** With valid lines the order total is non-negative. */
  lemma {:induction false} OrderTotalNonNegative(lines: seq<OrderLine>, orderId: Id)
    requires forall k :: 0 <= k < |lines| ==> ValidLine(lines[k])
    ensures OrderTotal(lines, orderId) >= 0
  {
    if |lines| > 0 {
      assert ValidLine(lines[0]);
      OrderTotalNonNegative(lines[1..], orderId);
    }
  }
}

=== FILE: outcomes.dfy ===
/** Typed outcomes shared by every operation of the store.

    The original backend signals failures by throwing (model hooks and
    instance methods) or by answering with an HTTP status (controllers).
    Here every failure is a value of `Error`, carried by `Result`.
 */
module Outcomes {

  /** An optional value; plays the role of JavaScript's `null`/`undefined`. */
  datatype Option<+T> = None | Some(value: T)

  /** Record fields that carry a Sequelize validator. */
  datatype Field =
    | Name
    | Price
    | Stock
    | Image
    | Quantity
    | UnitPrice
    | Subtotal
    | Total
    | Address
    | Phone

  datatype Error =
    /** A looked-up record does not exist (404 in the controllers). */
    | NotFound
    /** A parent category or subcategory exists but is inactive. */
    | ParentInactive
    /** The subcategory does not belong to the given category. */
    | HierarchyMismatch
    /** A delete is refused because child records still exist. */
    | HasDependents
    /** 'Stock insuficiente'. */
    | InsufficientStock
    /** 'Estado invalido': a status outside the closed set. */
    | InvalidStatus
    /** 'Este pedido no puede ser cancelado'. */
    | CannotCancel
    /** Orders are never deleted: 'use el estado cancelado'. */
    | UseCancelInstead
    /** A required request field is absent or falsy (400 in the controllers). */
    | MissingFields
    /** A unique name or a unique index would be violated. */
    | Duplicate
    /** A foreign key with ON DELETE RESTRICT still has referencing rows. */
    | Restricted
    /** An insert names a parent row that does not exist (foreign key). */
    | MissingReference
    /** The database rejects the query itself (a negative LIMIT or OFFSET). */
    | QueryFailed
    /** The code calls or reads something that does not exist and throws
        (a JavaScript TypeError or ReferenceError). */
    | ScriptError
    /** Sequelize validation failed; every failing field is reported. */
    | Invalid(fields: set<Field>)

  /** Either the new value or the error that stopped the operation;
      usable with `:-`. */
  datatype Result<+T> = Ok(value: T) | Err(error: Error) {

    predicate IsFailure() {
      Err?
    }

    function PropagateFailure<U>(): Result<U>
      requires Err?
    {
      Err(error)
    }

    function Extract(): T
      requires Ok?
    {
      value
    }
  }

  /** Turns a set of failing fields into an outcome: `Ok(x)` when it is empty. */
  function Validated<T>(failing: set<Field>, x: T): (r: Result<T>)
    ensures r.Ok? <==> failing == {}
    ensures r.Ok? ==> r.value == x
    ensures r.Err? ==> r.error == Invalid(failing)
  {
    if failing == {} then Ok(x) else Err(Invalid(failing))
  }
}

=== FILE: paging.dfy ===
/** The listing of `getProductos`: the query filters, the page window and
    the page count. Query values arrive parsed; a filter that is `None`
    was not given. */
module Paging {
  import opened Outcomes
  import opened Tables
  import opened Catalog

  const DefaultPage: int := 1
  const DefaultLimit: int := 100

  datatype Query = Query(
    categoryId: Option<Id>,
    subcategoryId: Option<Id>,
    active: Option<string>,
    withStock: Option<string>,
    page: Option<int>,
    limit: Option<int>)

  function PageOf(q: Query): int {
    if q.page.Some? then q.page.value else DefaultPage
  }

  function LimitOf(q: Query): int {
    if q.limit.Some? then q.limit.value else DefaultLimit
  }

  /** `offset = (pagina - 1) * limite`. */
  function Offset(page: int, limit: int): (r: int)
    ensures page == 1 ==> r == 0
    ensures page >= 1 && limit >= 0 ==> r >= 0
  {
    (page - 1) * limit
  }

  /** Consecutive pages neither overlap nor leave a gap. */
  lemma NextPageFollows(page: int, limit: int)
    ensures Offset(page + 1, limit) == Offset(page, limit) + limit
  {
  }

  /** The `where` built from the query: `categoriaId`, `subcategoriaId`,
      `activo` compared with the text 'true', and `stock > 0` when
      `conStock` is 'true'. */
  predicate Matches(p: Product, q: Query) {
    && (q.categoryId.None? || p.categoryId == q.categoryId.value)
    && (q.subcategoryId.None? || p.subcategoryId == q.subcategoryId.value)
    && (q.active.None? || p.active == (q.active.value == "true"))
    && (q.withStock != Some("true") || p.stock > 0)
  }

  /** The value of `Math.ceil(count / limite)`. */
  datatype PageCount = Pages(n: int) | Infinity | NotANumber

  /** `totalpaginas = Math.ceil(count / limite)`. */
  function TotalPages(count: nat, limit: int): (r: PageCount)
    ensures limit > 0 ==> r.Pages? && r.n >= 0
    ensures limit > 0 && count > 0 ==> (r.n - 1) * limit < count <= r.n * limit
    ensures limit > 0 && count == 0 ==> r == Pages(0)
    ensures limit == 0 ==> (r == Infinity <==> count > 0) && (r == NotANumber <==> count == 0)
    ensures limit < 0 ==> r.Pages? && r.n <= 0
  {
    if limit > 0 then Pages((count + limit - 1) / limit)
    else if limit == 0 then (if count > 0 then Infinity else NotANumber)
    else Pages(-(count / -limit))
  }

  /** Every matching row lies on exactly one page, and that page is within
      the page count. */
  lemma {:induction false} ItemOnItsPage(k: nat, count: nat, limit: int)
    requires limit > 0 && k < count
    ensures 1 <= k / limit + 1 <= TotalPages(count, limit).n
    ensures Offset(k / limit + 1, limit) <= k < Offset(k / limit + 1, limit) + limit
  {
    var p := k / limit;
    assert p * limit <= k < p * limit + limit;
    var n := TotalPages(count, limit).n;
    if n < p + 1 {
      assert n * limit <= p * limit by {
        MulMonotone(n, p, limit);
      }
      assert false;
    }
  }

  lemma MulMonotone(a: int, b: int, c: int)
    requires a <= b && c >= 0
    ensures a * c <= b * c
  {
    assert (b - a) * c >= 0;
  }

  /** The result of `findAndCountAll`: the number of matching rows and the
      rows of the requested page. */
  datatype Listing = Listing(count: nat, rows: seq<Product>, totalPages: PageCount)

  /** `getProductos` over `ordered`, the product table already in the
      order the query asks for (by name). */
  function ListProducts(ordered: seq<Product>, q: Query): (r: Result<Listing>)
    ensures r.Err? <==> LimitOf(q) < 0 || Offset(PageOf(q), LimitOf(q)) < 0
    ensures r.Err? ==> r.error == QueryFailed
    ensures r.Ok? ==>
      && r.value.count == |Filter(ordered, MatchesQuery(q))|
      && |r.value.rows| <= LimitOf(q)
      && (forall p :: p in r.value.rows ==> p in ordered && Matches(p, q))
      && r.value.totalPages == TotalPages(r.value.count, LimitOf(q))
    ensures r.Ok? && Offset(PageOf(q), LimitOf(q)) + LimitOf(q) <= r.value.count ==> |r.value.rows| == LimitOf(q)
    ensures r.Ok? ==> forall k :: 0 <= k < |r.value.rows| ==>
      Offset(PageOf(q), LimitOf(q)) + k < r.value.count
      && r.value.rows[k] == Filter(ordered, MatchesQuery(q))[Offset(PageOf(q), LimitOf(q)) + k]
  {
    var limit := LimitOf(q);
    var offset := Offset(PageOf(q), limit);
    if limit < 0 || offset < 0 then Err(QueryFailed)
    else
      var all := Filter(ordered, MatchesQuery(q));
      var lo := if offset <= |all| then offset else |all|;
      var hi := if offset + limit <= |all| then offset + limit else |all|;
      var page := all[lo..hi];
      assert forall p :: p in page ==> p in all;
      Ok(Listing(|all|, page, TotalPages(|all|, limit)))
  }

  function MatchesQuery(q: Query): Product -> bool {
    (p: Product) => Matches(p, q)
  }
}

=== FILE: tables.dfy ===
/** Tables of the relational store, modelled as sequences of rows in
    insertion order, with the primary-key helpers every model uses:
    lookup by key (`findByPk`), the next auto-increment key, and row
    filtering (`findAll` with a `where`, or a cascading delete). */
module Tables {
  import opened Outcomes

  /** Primary and foreign keys (`INTEGER` auto-increment columns). */
  type Id = nat

  /** No two rows share a primary key. */
  predicate UniqueKeys<T>(rows: seq<T>, key: T -> Id) {
    forall i, j :: 0 <= i < j < |rows| ==> key(rows[i]) != key(rows[j])
  }

  /** Some row has primary key `id`. */
  predicate HasKey<T>(rows: seq<T>, key: T -> Id, id: Id) {
    exists i :: 0 <= i < |rows| && key(rows[i]) == id
  }

  /** Position of the first row whose key is `id` (`findByPk`). */
  function IndexOf<T>(rows: seq<T>, key: T -> Id, id: Id): (r: Option<nat>)
    ensures r.Some? ==> r.value < |rows| && key(rows[r.value]) == id
    ensures r.None? <==> !HasKey(rows, key, id)
  {
    if |rows| == 0 then None
    else if key(rows[0]) == id then Some(0)
    else
      match IndexOf(rows[1..], key, id)
      case None =>
        assert forall i :: 1 <= i < |rows| ==> rows[i] == rows[1..][i - 1];
        None
      case Some(k) => Some(k + 1)
  }

  /** With unique keys, the row found is the only row with that key. */
  lemma IndexOfIsOnly<T>(rows: seq<T>, key: T -> Id, id: Id, j: nat)
    requires UniqueKeys(rows, key)
    requires j < |rows| && key(rows[j]) == id
    ensures IndexOf(rows, key, id) == Some(j)
  {
    var r := IndexOf(rows, key, id);
    assert r.Some? && key(rows[r.value]) == key(rows[j]);
  }

  /** Replacing the first row with a given key by a row with the same key
      keeps it the first row with that key. */
  lemma IndexOfAfterReplace<T>(rows: seq<T>, key: T -> Id, i: nat, x: T)
    requires IndexOf(rows, key, key(x)) == Some(i)
    ensures IndexOf(rows[i := x], key, key(x)) == Some(i)
  {
    var r := rows[i := x];
    if i > 0 {
      assert key(rows[0]) != key(x);
      IndexOfAfterReplace(rows[1..], key, i - 1, x);
      assert r[1..] == rows[1..][i - 1 := x];
    }
  }

  /** The largest key in the table, 0 when the table is empty. */
  function MaxKey<T>(rows: seq<T>, key: T -> Id): (m: Id)
    ensures forall i :: 0 <= i < |rows| ==> key(rows[i]) <= m
  {
    if |rows| == 0 then 0
    else
      var m := MaxKey(rows[1..], key);
      assert forall i :: 1 <= i < |rows| ==> rows[i] == rows[1..][i - 1];
      if key(rows[0]) > m then key(rows[0]) else m
  }

  /** The key the next insert receives from `AUTO_INCREMENT`: never in use. */
  function FreshKey<T>(rows: seq<T>, key: T -> Id): (k: Id)
    ensures k > 0
    ensures !HasKey(rows, key, k)
  {
    MaxKey(rows, key) + 1
  }

  /** Inserting a row under a fresh key keeps primary keys unique. */
  lemma AppendKeepsUnique<T>(rows: seq<T>, key: T -> Id, x: T)
    requires UniqueKeys(rows, key)
    requires !HasKey(rows, key, key(x))
    ensures UniqueKeys(rows + [x], key)
  {
    var r := rows + [x];
    forall i, j | 0 <= i < j < |r|
      ensures key(r[i]) != key(r[j])
    {
      if j == |rows| {
        assert r[i] == rows[i];
      } else {
        assert r[i] == rows[i] && r[j] == rows[j];
      }
    }
  }

  /** The rows that satisfy `keep`, in table order. */
  function Filter<T(!new)>(rows: seq<T>, keep: T -> bool): (r: seq<T>)
    ensures |r| <= |rows|
    ensures forall x :: x in r <==> x in rows && keep(x)
  {
    if |rows| == 0 then []
    else
      var tail := Filter(rows[1..], keep);
      assert forall x :: x in rows <==> x == rows[0] || x in rows[1..];
      if keep(rows[0]) then [rows[0]] + tail else tail
  }

  /** A row that survives a filter keeps its key in the filtered table. */
  lemma FilterKeepsKey<T(!new)>(rows: seq<T>, keep: T -> bool, key: T -> Id, id: Id)
    requires HasKey(rows, key, id)
    requires forall x :: x in rows && key(x) == id ==> keep(x)
    ensures HasKey(Filter(rows, keep), key, id)
  {
    var i :| 0 <= i < |rows| && key(rows[i]) == id;
    var r := Filter(rows, keep);
    assert rows[i] in r;
    var k :| 0 <= k < |r| && r[k] == rows[i];
  }

  /** Deleting rows keeps primary keys unique. */
  lemma {:induction false} FilterKeepsUnique<T(!new)>(rows: seq<T>, key: T -> Id, keep: T -> bool)
    requires UniqueKeys(rows, key)
    ensures UniqueKeys(Filter(rows, keep), key)
  {
    if |rows| > 0 {
      var tail := rows[1..];
      assert UniqueKeys(tail, key) by {
        forall i, j | 0 <= i < j < |tail|
          ensures key(tail[i]) != key(tail[j])
        {
          assert tail[i] == rows[i + 1] && tail[j] == rows[j + 1];
        }
      }
      FilterKeepsUnique(tail, key, keep);
      var ft := Filter(tail, keep);
      if keep(rows[0]) {
        var r := [rows[0]] + ft;
        forall i, j | 0 <= i < j < |r|
          ensures key(r[i]) != key(r[j])
        {
          if i == 0 {
            assert r[j] in tail;
            var k :| 0 <= k < |tail| && tail[k] == r[j];
            assert rows[k + 1] == r[j];
          } else {
            assert r[i] == ft[i - 1] && r[j] == ft[j - 1];
          }
        }
      }
    }
  }
}

=== FILE: text.dfy ===
/** String helpers used by the field validators and the token extractor.
    Strings are sequences of characters. White space is the class `\s` of
    JavaScript regular expressions; case folding is ASCII only, which is
    exact for the all-ASCII patterns it is used with. */
module Text {

  /** `s` begins with `p`. */
  predicate StartsWith(s: string, p: string) {
    |p| <= |s| && s[..|p|] == p
  }

  /** `s` ends with `x`. */
  predicate EndsWith(s: string, x: string) {
    |x| <= |s| && s[|s| - |x|..] == x
  }

  /** The class `\s` of a JavaScript regular expression: the ASCII white
      space characters, the no-break space, the Unicode space separators,
      the line and paragraph separators and the byte-order mark. */
  predicate IsWhiteSpace(c: char) {
    || c == ' ' || c == '\t' || c == '\n' || c == '\r' || c == '\U{000B}' || c == '\U{000C}'
    || c == '\U{00A0}' || c == '\U{1680}' || '\U{2000}' <= c <= '\U{200A}'
    || c == '\U{2028}' || c == '\U{2029}' || c == '\U{202F}' || c == '\U{205F}'
    || c == '\U{3000}' || c == '\U{FEFF}'
  }

  /** The validator `notEmpty` of Sequelize, the pattern
      `/^[\s\t\r\n]*$/`, refuses strings made of white space only (the
      empty string included). */
  predicate NotBlank(s: string) {
    exists i :: 0 <= i < |s| && !IsWhiteSpace(s[i])
  }

  /** A variation selector that picks the text or the emoji presentation
      of the character before it (U+FE0E, U+FE0F). */
  predicate IsPresentationSelector(c: char) {
    c == '\U{FE0E}' || c == '\U{FE0F}'
  }

  /** The length `isLength` of validator.js measures, which the Sequelize
      validator `len` uses: code points, not counting presentation
      selectors. */
  function Length(s: string): (r: nat)
    ensures r <= |s|
    ensures r == |s| <==> forall i :: 0 <= i < |s| ==> !IsPresentationSelector(s[i])
  {
    if s == [] then 0
    else (if IsPresentationSelector(s[0]) then 0 else 1) + Length(s[1..])
  }

  function LowerChar(c: char): char {
    if 'A' <= c <= 'Z' then (c as int + 32) as char else c
  }

  /** ASCII lower case, as used by the `i` flag of a regular expression. */
  function Lower(s: string): (r: string)
    ensures |r| == |s|
    ensures forall i :: 0 <= i < |s| ==> r[i] == LowerChar(s[i])
  {
    if s == [] then [] else [LowerChar(s[0])] + Lower(s[1..])
  }

  /** `s` ends with `x`, comparing letters without regard to case. */
  predicate EndsWithIgnoringCase(s: string, x: string) {
    |x| <= |s| && Lower(s[|s| - |x|..]) == Lower(x)
  }

}

=== FILE: tokens.dfy ===
/** `extractToken`: the bearer token of an `Authorization` header. */
module Tokens {
  import opened Outcomes
  import Text

  /** The scheme prefix, with its trailing space; compared case-sensitively. */
  const Scheme: string := "Bearer "

  /** `extractToken(authHeader)`: the text after "Bearer " when the header
      is present, non-empty and starts with it; `null` otherwise. */
  function ExtractToken(header: Option<string>): (r: Option<string>)
    ensures r.Some? <==> header.Some? && Text.StartsWith(header.value, Scheme)
    ensures r.Some? ==> |r.value| == |header.value| - 7
    ensures r.Some? ==> header.value == Scheme + r.value
  {
    if header.Some? && header.value != "" && Text.StartsWith(header.value, Scheme) then
      assert header.value == header.value[..7] + header.value[7..];
      Some(header.value[7..])
    else None
  }

  /** A missing or empty header yields `null`. */
  lemma MissingHeaderHasNoToken()
    ensures ExtractToken(None) == None
    ensures ExtractToken(Some("")) == None
  {
  }

  /** The scheme is matched exactly: a lower-case scheme or a missing
      space yields `null`. */
  lemma SchemeIsCaseSensitive(t: string)
    ensures ExtractToken(Some("bearer " + t)) == None
    ensures ExtractToken(Some("Bearer")) == None
  {
    assert ("bearer " + t)[0] == 'b';
  }

  /** Round trip: the token put after the scheme is the token extracted. */
  lemma ExtractAfterScheme(t: string)
    ensures ExtractToken(Some(Scheme + t)) == Some(t)
  {
    assert (Scheme + t)[..|Scheme|] == Scheme;
    assert (Scheme + t)[|Scheme|..] == t;
  }

  /** The header "Bearer " alone yields the empty token, not `null`. */
  lemma SchemeAloneGivesEmptyToken()
    ensures ExtractToken(Some(Scheme)) == Some("")
  {
    ExtractAfterScheme("");
    assert Scheme + "" == Scheme;
  }
}
